=== FILE: README.md ===
# starbeam dev-core: rule normaliser, strictness resolver and package descriptor

This Dafny project models the pure core of `@starbeam/dev-core`'s package
loader. The loader turns a parsed `package.json` into a build descriptor in three steps:

- **Rule normaliser** (`src/externals.ts`). It turns the author's `starbeam:inline`
  declaration into a flat, ordered list of `[operator, pattern, config]`
  operations. A bare name is read as `inline`, and a record keeps its configs.
  A `*` suffix makes a prefix match. `(helpers)` expands to the three built-in
  helper packages, and `(scope)` expands to the package's own `@scope/` prefix.
  With no declaration, the defaults are every helper inlined, followed by the
  own scope as external.
- **Strictness resolver** (`expand` and `verifyValue` in `src/package.ts`). It
  folds over the declared `(dimension, level)` entries. It keeps a `leftover`
  set of unassigned dimensions. The `all.v1` catch-all assigns only the
  dimensions still left over.
- **Metadata accessor and descriptor builder** (`getPackageMeta` in
  `src/package-meta.ts`, and the pure part of `buildPackage`). A truthy flat
  `starbeam:<setting>` key wins over the nested `starbeam` object. A truthy
  non-object `starbeam` value throws. The `type` setting has a default. The
  entry point is found through a fixed fallback chain. A descriptor is built
  exactly when the resolved entry has a truthy `index`.

Modules: `Wrappers` (`Option` for `undefined`, `Result` for a throw), `Types`
(`src/types.ts`, plus JavaScript property lookup, truthiness and `typeof`),
`Externals` and `ExternalsLemmas`, `PackageMeta`, `Strict` and `StrictLemmas`,
`Package` and `PackageLemmas`. JSON objects are entry sequences in
`Object.entries` order. A JavaScript object has distinct own keys, so a property
read returns the first entry with that key. Warnings are values in the result,
not effects. Whether `src/index.ts` exists is a boolean parameter.

Where the code and its documentation disagree, the model follows the code:

- An invalid strictness level prints a warning that says it falls back to
  `"allow"`. In fact `verifyValue` returns `undefined`, and the key has already
  left `leftover`, so the resolved `externals` is `undefined`
  (`StrictLemmas.InvalidLevelLeavesUndefined`, `StrictLemmas.InvalidLevelExamples`).
- A nested `starbeam` value that is an array is not an error. `typeof [] ===
  "object"`, so the array is read like an object, and every setting reads as
  `undefined`. The array branch of `invalidKey`'s message therefore cannot be
  reached (`PackageMeta.ErrorValueIsTruthyScalar`).
- A bogus `all.v1` after an explicit `externals` entry is never checked and
  prints no warning.

## Model

| member | source | states |
|---|---|---|
| Externals.RemoveLast | src/externals.ts:92-97 | `slice(0, -1)`: the result plus the dropped last character is the input; the empty string stays empty |
| Externals.ScopeOf | src/externals.ts:83-86 | the result is exactly the prefix `/^(@[^/]+\/)/` captures: `@`, at least one non-`/` character, the first `/`; any such prefix is the result, and there is none when the result is `None` |
| Externals.NormalizeLeaf | src/externals.ts:71-90 | every operation carries the leaf's config and normalises back to itself; a non-macro leaf gives exactly one operation, `(helpers)` one per helper, `(scope)` at most one |
| Externals.NormalizeNames | src/externals.ts:79-81 | the helper list's flat map keeps the caller's config on every operation and yields one operation per non-macro name |
| Externals.NormalizeEntries | src/externals.ts:65-67 | a record's operations each carry the config of one of its entries |
| Externals.NormalizeRule | src/externals.ts:52-69 | a bare string rule is normalised at the default config |
| Externals.NormalizeRuleList | src/externals.ts:21-24 | every operation of an array declaration is reproducible |
| Externals.NormalizeRules | src/externals.ts:13-43 | every produced operation, defaults included, is reproducible (partner of the round trip) |
| ExternalsLemmas.StarLeafIsPrefixMatch | src/externals.ts:76-77 | a `*`-suffixed name yields one `startsWith` whose pattern plus `*` is the name, at the leaf's config, even when the rest is a macro name |
| ExternalsLemmas.HelpersMacroExpansion | src/externals.ts:78-81 | `(helpers)` expands to `startsWith "@babel/runtime/"`, `is "tslib"`, `is "@swc/core"`, all at the caller's config rather than a forced `inline` |
| ExternalsLemmas.HelperNamesExpansion | src/externals.ts:34-38 | the `HELPERS` flat map gives the three helper operations in order |
| ExternalsLemmas.ScopeMacroOnScopedName | src/externals.ts:82-86 | `(scope)` on a scoped name yields one `startsWith` on its scope prefix |
| ExternalsLemmas.ScopeMacroOnUnscopedName | src/externals.ts:83-84 | `(scope)` on a name not starting with `@` yields nothing |
| ExternalsLemmas.DefaultRulesForScopedName | src/externals.ts:32-42 | with no rules and a scoped name the output is exactly the three helpers `inline`, then `startsWith` the scope `external` |
| ExternalsLemmas.DefaultRulesForUnscopedName | src/externals.ts:40 | with no rules and no scope the output is just the three helper operations |
| ExternalsLemmas.DefaultRulesExample | src/externals.ts:7 | `@s/p` gets the four default operations ending in `startsWith "@s/" external`; `plainpkg` gets three |
| ExternalsLemmas.NormalizeEntriesAppend | src/externals.ts:26-28 | normalising a record distributes over concatenation of its entries |
| ExternalsLemmas.RuleListAppend | src/externals.ts:22-24 | order preservation: the operations of `a + b` are those of `a` followed by those of `b` |
| ExternalsLemmas.ListLeavesNormalize | src/externals.ts:62-67 | an array declaration normalises as its flattened leaves |
| ExternalsLemmas.RulesNormalizeLeafByLeaf | src/externals.ts:20-30 | a defined declaration's output is exactly the in-order concatenation of its leaves' normalisations |
| ExternalsLemmas.ArrayElementConfigs | src/externals.ts:62-64 | in an array a bare string gets `inline`, and a nested record normalises like the same record at top level |
| ExternalsLemmas.EntriesOpsComeFromLeaves | src/externals.ts:65-67 | every operation of a record comes from one of its entries |
| ExternalsLemmas.DeclaredRulesAddNoDefaults | src/externals.ts:20 | when rules are defined no default is appended: every operation comes from a leaf of the declaration |
| ExternalsLemmas.LeafRoundTrip | src/externals.ts:76-89 | a produced operation encoded as `{p: c}` or `{p*: c}` normalises back to exactly itself |
| ExternalsLemmas.RoundTrip | src/externals.ts:21-24 | a list of produced operations, written back one record each, normalises back to the same list |
| ExternalsLemmas.NormalizeIsIdempotent | src/externals.ts:13-30 | re-normalising any normaliser output reproduces it |
| ExternalsLemmas.MacroPatternDoesNotRoundTrip | src/externals.ts:78 | an `is "(helpers)"` operation, which the normaliser never produces, does not round-trip |
| PackageMeta.GetPackageMeta | src/package-meta.ts:16-40 | a truthy flat key selects its value; else a falsy `starbeam` selects `undefined`, an object its property, an array `undefined`; a truthy non-object throws naming the root and value |
| PackageMeta.TransformAppliedToSelectedValue | src/package-meta.ts:24-37 | `map` is applied exactly once to the value the plain accessor selects, and never on the error path |
| PackageMeta.FlatKeyWinsOverNested | src/package-meta.ts:22-26 | a truthy flat key wins over any nested `starbeam` value, even a malformed one |
| PackageMeta.FalsyFlatKeyFallsThrough | src/package-meta.ts:24-28 | a falsy flat value reads the same as an absent flat key |
| PackageMeta.ErrorValueIsTruthyScalar | src/package-meta.ts:46-53 | the error's value is a truthy string, number or boolean, so the message always takes the `JSON.stringify` branch and never says "an array" |
| PackageMeta.InvalidKey | src/package-meta.ts:46-58 | the thrown error names the root and the value, and describes it as "an array" exactly when it is an array, otherwise by the value itself |
| PackageMeta.GetPackageValue | src/package-meta.ts:11-15 | the overload without `map` returns a truthy flat value as is; any value it returns comes from the flat key or from a nested `starbeam` object, never from an array |
| PackageMeta.FlatKeyExample | src/package-meta.ts:22-25 | `{"starbeam:type": "A", starbeam: {type: "B"}}` reads `"A"` |
| Strict.VerifyValue | src/package.ts:200-220 | `allow`/`warn`/`error` are returned unchanged with no warning; any other value yields `undefined` and exactly one warning naming key and value |
| Strict.Delete | src/package.ts:187 | `leftover.delete(key)` keeps exactly the other keys |
| Strict.AssignAll | src/package.ts:182-184 | `all.v1` assigns the checked value to exactly the left-over keys and leaves every other key alone; an invalid level prints one warning per left-over key, in order, each naming that dimension (not `all.v1`) |
| Strict.Step | src/package.ts:181-190 | one loop iteration: `all.v1` assigns every left-over dimension, clears `leftover` and, for an invalid level, adds one warning per left-over dimension in order; any other key gets its own checked level, leaves `leftover` and adds only its own warning; earlier assignments to keys no longer left over survive |
| Strict.Run | src/package.ts:180-191 | the loop only shrinks `leftover` and only adds warnings; without `all.v1` entries, exactly the keys never declared stay left over |
| Strict.FillLeftover | src/package.ts:193-195 | the keys still left over become `allow`; the others keep their assignment |
| Strict.StepKeepsCovered | src/package.ts:180-191 | one loop iteration keeps `externals` either left over or assigned, and an assigned `undefined` warned |
| Strict.RunKeepsCovered | src/package.ts:180-191 | the whole loop keeps that invariant |
| Strict.Expand | src/package.ts:161-198 | no declaration gives `allow` with no warning; a resolved `undefined` always comes with a warning |
| StrictLemmas.LastValueCons | src/package.ts:186-189 | the last entry for a key in `[x] + rest` is that of `rest`, or `x` itself |
| StrictLemmas.RunDecidesExternals | src/package.ts:180-195 | from any covered state, the last explicit `externals` entry decides, else the first `all.v1` while `externals` is left over, else the state's value or `allow` |
| StrictLemmas.ExpandMatchesReference | src/package.ts:161-198 | `expand` equals the reference reading: last `externals` entry, else first `all.v1`, else `allow`, where an invalid deciding level gives `undefined` |
| StrictLemmas.StepWarnings | src/package.ts:181-190 | one iteration appends exactly the reference warning for its entry, and keeps `externals` open only for a key other than `externals` and `all.v1` |
| StrictLemmas.RunWarnings | src/package.ts:180-191 | the loop appends exactly the reference warnings for its entries |
| StrictLemmas.ExpandWarnings | src/package.ts:161-198 | `expand` prints one warning per invalid level actually checked, in entry order: every non-`all.v1` entry under its own key, an `all.v1` entry under `externals` only before any `externals` or `all.v1` entry |
| StrictLemmas.TwoWarningsExample | src/package.ts:183-189 | `{jsx: "x", all.v1: "bogus"}` warns first about `jsx`, then about `externals` |
| StrictLemmas.EmptyDeclarationAllows | src/package.ts:171-195 | an empty declaration gives `allow` through the leftover loop and warns nothing |
| StrictLemmas.ExplicitLevelWins | src/package.ts:186-190 | a valid explicit `externals` level is the result, whichever side of `all.v1` it is on |
| StrictLemmas.CatchAllDecidesWhenNoExplicitEntry | src/package.ts:181-185 | without an `externals` entry the first valid `all.v1` level is the result |
| StrictLemmas.InvalidLevelLeavesUndefined | src/package.ts:187-189 | an invalid deciding level leaves `externals` `undefined`, not `allow`, with a warning |
| StrictLemmas.RunWithValidLevelsWarnsNothing | src/package.ts:180-191 | a loop over valid levels adds no warning |
| StrictLemmas.ValidLevelsWarnNothing | src/package.ts:205-209 | a declaration of valid levels prints no warning |
| StrictLemmas.OrderingExamples | src/package.ts:180-191 | `{externals: warn}` is warn, `{all.v1: error}` is error, and `all.v1: error` with `externals: warn` in either order is warn |
| StrictLemmas.InvalidLevelExamples | src/package.ts:181-189 | `{externals: "bogus"}` and `{all.v1: "bogus"}` each give `undefined` and one warning naming `externals`; a bogus `all.v1` after `externals: warn` gives warn and no warning |
| Package.ResolveType | src/package.ts:87-96 | absent `type` is `library:private` iff `private` is truthy, else `library:public`; a string is kept; any other value (even `null`) throws |
| Package.ResolveEntry | src/package.ts:101-117 | a string entry becomes `{index: s}`; an object, array or `null` is kept; otherwise a non-string `main` throws |
| Package.MetaMap | src/package.ts:81-117 | `meta.map(path, transform)` is the transform's outcome on the value `meta.get(path)` selects, or the accessor's shape error |
| Package.MainEntry | src/package.ts:119 | `entry?.["index"]` is defined exactly when the entry is an object with an `index` key, and is then that property's value; `p` for `{index: p}` |
| Package.Dependencies | src/package.ts:127 | `dependencies ?? {}`: the declared value unless absent or `null`, and `{}` in those two cases |
| Package.BuildPackage | src/package.ts:70-141 | a descriptor exists iff the resolved entry has a truthy `index`; then its entry is that index, with the manifest's name and main, the root, and the defaulted dependencies; its `starbeam` record holds the normalised `inline` rules, the expanded `strict` settings (whose warnings are the build's), the resolved `type`, the `jsx` and `source` values as read, and the whole resolved entry; otherwise the warnings are those of `strict` followed by one naming the package and root; the build throws exactly when reading `inline`, `strict`, `type`, `jsx`, `source` or `entry` throws, the first of them in that order decides the error, a throw at `inline` or `strict` comes with no warnings, and a later throw keeps the warnings `strict` printed |
| Package.Complete | src/package.ts:87-140 | once `inline` and `strict` are read, the build throws iff reading `type`, `jsx`, `source` or `entry` throws, with the first throw's error (a malformed namespace at `jsx` or `source` reported for that root and value); otherwise a descriptor exists iff the resolved entry has a truthy `index`, carries the given rules and strictness and the values read, and a missing entry prints exactly one warning naming the package and root |
| PackageLemmas.DecodeRulesRoundTrip | src/types.ts:35-37 | every declaration of the declared `InlineRules` type is read back exactly from its JSON form |
| PackageLemmas.StringEntryHasIndex | src/package.ts:102-103 | a string entry resolves to an `index` entry point, usable iff it is non-empty |
| PackageLemmas.FallbackChain | src/package.ts:106-116 | with no string or object entry, the entry is `{index: main}` for a `.ts` main, else `{index: "src/index.ts"}` when that file exists, else `undefined` |
| PackageLemmas.ArrayOrNullEntryHasNoIndex | src/package.ts:104-105 | an array or `null` entry is kept as is and has no `index`, so no descriptor |
| PackageLemmas.MalformedNamespaceFails | src/package.ts:81-83 | a truthy non-object `starbeam` makes the build throw at `inline`, before any warning, unless `starbeam:inline` is truthy |
| PackageLemmas.UndeclaredSettingsUseDefaults | src/package.ts:81-99 | with no starbeam settings and a string `main` the build never throws; a descriptor carries the default rules, `allow`, the `private`-based type and no `jsx`/`source`; the only possible warning is the missing-entry one |
| PackageLemmas.DeclaredRulesReachDescriptor | src/package.ts:81-83 | declared `starbeam:inline` rules reach the descriptor normalised for the package's own name, with no defaults |
| PackageLemmas.DeclaredStrictReachesDescriptor | src/package.ts:85 | a declared `starbeam:strict` record reaches the descriptor with `externals` resolved by the reference reading of the strictness rules |
| PackageLemmas.DeclaredValuesReachDescriptor | src/package.ts:87-99 | truthy declared `type` (when a string), `jsx` and `source` values are stored in the descriptor as declared, each in its own field |
| PackageLemmas.FirstFailingReadDecides | src/package.ts:81-117 | the settings are read in the order `inline`, `strict`, `type`, `jsx`, `source`, `entry` and the first read that throws decides the error; a throw at `inline` or `strict` comes before any warning, and a later throw keeps exactly the warnings `strict` printed |
| PackageLemmas.WarningThenTypeErrorExample | src/package.ts:85-90 | a bogus `externals` level together with `starbeam:type: 5` prints the strictness warning and then throws the invalid-type error |
| PackageLemmas.NoEntryExample | src/package.ts:137-140 | `{name: "@x/y", main: "index.mjs"}` without `src/index.ts` gives no descriptor and one warning naming `@x/y` |
| PackageLemmas.MainTsEntry | src/package.ts:107-111 | with no `entry` and a `.ts` main, the resolved entry is `{index: main}` whether or not `src/index.ts` exists |
| PackageLemmas.MainTsExample | src/package.ts:107-111 | `{name: "z", main: "index.ts"}` gives a descriptor whose entry is `"index.ts"` and whose `starbeam.entry` is `{index: "index.ts"}` |
| PackageLemmas.MainTsDefaults | src/package.ts:95 | that descriptor has type `library:public` (no `private` field) and `{}` dependencies (no `dependencies` field) |

## Left out

- Reading and parsing the manifest (`readFileSync`, `parseJSON`, `resolve`, `rootAt`, `URL`): the model takes the parsed manifest and the root as inputs. `existsSync` on `src/index.ts` is a boolean parameter.
- The wording of warnings and error messages: they are tags carrying the key and value, or the name and root. `console.warn` is not an effect here. The `root` argument of `expand`/`verifyValue` only feeds message text and is dropped.
- The `Package` and `StrictSettings` wrapper classes, their getters and the `nodejs.util.inspect.custom` hook. These are plain accessors; the descriptor and the settings are datatypes.
- The `GetPackageMeta` class that `buildPackage` calls is not part of this model. Its `map`/`get` are modelled as calls to `getPackageMeta`.
- `rollup.config.js` and `src/index.ts`: build configuration and re-exports.
- How a bundler consumes the operation list (first-match semantics): no modelled code implements it.
- `Object.entries` moves integer-like keys to the front: the entry sequence is taken to be in iteration order already. Duplicate keys cannot occur in a JavaScript object; the model reads the first.
- JSON numbers are integers; only their truthiness matters.
- Package.BuildPackage: requires the manifest's `name` to be a string, as the manifest type and the `normalizeRules` signature declare. The string coercion the scope regex would apply to other values is not modelled.
- Package.DecodeRules and Package.DecodeStrict: `inline` and `strict` values outside their declared types stop the build with `UntypedRules`/`UntypedStrict`. The code would instead go on with JavaScript coercions: `Object.entries` of a string, configs other than `inline`/`external`, or a `TypeError` on `null`.
- Strict.Expand: `result[key]` entries for unrecognised keys are kept in the fold's map but not exposed, since `StrictSettings` only reads `externals`.
- Externals.RemoveLast: strings are sequences of characters, not UTF-16 code units, so on a name ending in a character outside the Basic Multilingual Plane `slice(0, -1)` would leave half a surrogate pair where the model drops the whole character. `normalizeLeaf` only calls it on names ending in `*`, where the two agree.
- Externals.NormalizeRule: the `defaultConfig = "inline"` parameter default only applies to an `undefined` config, which typed records cannot hold.

=== FILE: externals.dfy ===
/** The rule normaliser of `src/externals.ts`: it turns an author's
    inline/external declaration into a flat, ordered list of
    `(operator, pattern, config)` operations, expanding the `*` suffix and the
    `(helpers)` and `(scope)` macros, and supplies the default rules when the
    author declared none. */
module Externals {
  import opened Wrappers
  import opened Types

  /** `HELPERS`: the runtime helper packages inlined by default. */
  const Helpers: seq<string> := ["@babel/runtime/*", "tslib", "@swc/core"]

  const HelpersMacro: string := "(helpers)"
  const ScopeMacro: string := "(scope)"

  predicate EndsWithStar(name: string) {
    |name| > 0 && name[|name| - 1] == '*'
  }

  /** `removeLast`: `slice(0, -1)`, which leaves the empty string empty. */
  function RemoveLast(s: string): (r: string)
    ensures |s| > 0 ==> r + [s[|s| - 1]] == s
    ensures |s| == 0 ==> r == []
  {
    if |s| == 0 then [] else s[..|s| - 1]
  }

  /** `scope` is what `/^(@[^/]+\/)/` captures in `packageName`: an `@`, at
      least one character other than `/`, then the first `/`. */
  ghost predicate IsScopePrefix(scope: string, packageName: string) {
    && 3 <= |scope| <= |packageName|
    && scope == packageName[..|scope|]
    && scope[0] == '@'
    && scope[|scope| - 1] == '/'
    && forall i :: 1 <= i < |scope| - 1 ==> scope[i] != '/'
  }

  /** Index of the first `/` at or after `from`. */
  function FirstSlash(s: string, from: nat): (r: Option<nat>)
    requires from <= |s|
    ensures r.Some? ==> from <= r.value < |s| && s[r.value] == '/'
    ensures r.Some? ==> forall i :: from <= i < r.value ==> s[i] != '/'
    ensures r.None? ==> forall i :: from <= i < |s| ==> s[i] != '/'
    decreases |s| - from
  {
    if from == |s| then None
    else if s[from] == '/' then Some(from)
    else FirstSlash(s, from + 1)
  }

  /** The scope prefix of a package name (`@org/` of `@org/pkg`), if any. */
  function ScopeOf(packageName: string): (r: Option<string>)
    ensures r.Some? ==> IsScopePrefix(r.value, packageName)
    ensures forall scope :: IsScopePrefix(scope, packageName) ==> r == Some(scope)
  {
    if |packageName| == 0 || packageName[0] != '@' then None
    else
      match FirstSlash(packageName, 1)
      case None => None
      case Some(k) => if k >= 2 then Some(packageName[..k + 1]) else None
  }

  /** An operation that normalises back to itself when written as the
      one-entry record `Encode(o)`: every `startsWith`, and every `is` whose
      pattern is neither a macro nor `*`-suffixed. */
  predicate Reproducible(o: Op) {
    || o.operator == StartsWith
    || (!EndsWithStar(o.pattern) && o.pattern != HelpersMacro && o.pattern != ScopeMacro)
  }

  /** `normalizeLeaf`: one pattern name at one config. */
  function NormalizeLeaf(name: string, config: ExternalConfig, packageName: string): (r: seq<Op>)
    ensures forall o :: o in r ==> o.config == config && Reproducible(o)
    ensures name != HelpersMacro && name != ScopeMacro ==> |r| == 1
    ensures name == HelpersMacro ==> |r| == |Helpers|
    ensures name == ScopeMacro ==> |r| <= 1
    decreases if name == HelpersMacro then 1 else 0, 0
  {
    if EndsWithStar(name) then
      [Op(StartsWith, RemoveLast(name), config)]
    else if name == HelpersMacro then
      NormalizeNames(Helpers, config, packageName)
    else if name == ScopeMacro then
      match ScopeOf(packageName)
      case None => []
      case Some(scope) => [Op(StartsWith, scope, config)]
    else
      [Op(Is, name, config)]
  }

  /** `names.flatMap(n => normalizeLeaf(n, config, packageName))` over names
      that are not the `(helpers)` macro (the helper list and its expansion). */
  function NormalizeNames(names: seq<string>, config: ExternalConfig, packageName: string): (r: seq<Op>)
    requires forall i :: 0 <= i < |names| ==> names[i] != HelpersMacro
    ensures forall o :: o in r ==> o.config == config && Reproducible(o)
    ensures (forall i :: 0 <= i < |names| ==> names[i] != ScopeMacro) ==> |r| == |names|
    decreases 0, |names|
  {
    if |names| == 0 then []
    else NormalizeLeaf(names[0], config, packageName) + NormalizeNames(names[1..], config, packageName)
  }

  /** `Object.entries(record).flatMap(([name, config]) => normalizeLeaf(...))`. */
  function NormalizeEntries(entries: seq<RuleEntry>, packageName: string): (r: seq<Op>)
    ensures forall o :: o in r ==> Reproducible(o)
    ensures forall o :: o in r ==> exists i :: 0 <= i < |entries| && entries[i].1 == o.config
  {
    if |entries| == 0 then []
    else
      var head := NormalizeLeaf(entries[0].0, entries[0].1, packageName);
      var tail := NormalizeEntries(entries[1..], packageName);
      assert forall o :: o in tail ==> exists i :: 0 <= i < |entries| && entries[i].1 == o.config by {
        forall o | o in tail ensures exists i :: 0 <= i < |entries| && entries[i].1 == o.config {
          var j :| 0 <= j < |entries[1..]| && entries[1..][j].1 == o.config;
          assert entries[j + 1].1 == o.config;
        }
      }
      head + tail
  }

  /** `normalizeRule`: a bare name takes `defaultConfig`; a record keeps the
      config of each of its entries. */
  function NormalizeRule(rule: InlineRule, defaultConfig: ExternalConfig, packageName: string): (r: seq<Op>)
    ensures forall o :: o in r ==> Reproducible(o)
    ensures rule.Bare? ==> forall o :: o in r ==> o.config == defaultConfig
  {
    match rule
    case Bare(name) => NormalizeLeaf(name, defaultConfig, packageName)
    case Record(entries) => NormalizeEntries(entries, packageName)
  }

  /** `rules.flatMap(rule => normalizeRule(rule, {defaultConfig: "inline"}))`. */
  function NormalizeRuleList(rules: seq<InlineRule>, packageName: string): (r: seq<Op>)
    ensures forall o :: o in r ==> Reproducible(o)
  {
    if |rules| == 0 then []
    else NormalizeRule(rules[0], Inline, packageName) + NormalizeRuleList(rules[1..], packageName)
  }

  /** `normalizeRules`: `None` (an undeclared setting) selects the defaults,
      every helper inlined followed by the own scope as external. */
  function NormalizeRules(rules: Option<InlineRules>, packageName: string): (r: seq<Op>)
    ensures forall o :: o in r ==> Reproducible(o)
  {
    match rules
    case None =>
      NormalizeNames(Helpers, Inline, packageName) + NormalizeLeaf(ScopeMacro, External, packageName)
    case Some(RuleList(list)) => NormalizeRuleList(list, packageName)
    case Some(RuleRecord(entries)) => NormalizeEntries(entries, packageName)
  }

  /** The declaration flattened to its leaves: a bare name becomes an
      `inline` leaf, a record contributes its entries in order. */
  function Leaves(rules: InlineRules): seq<RuleEntry> {
    match rules
    case RuleRecord(entries) => entries
    case RuleList(list) => ListLeaves(list)
  }

  function ListLeaves(list: seq<InlineRule>): seq<RuleEntry> {
    if |list| == 0 then []
    else
      var head := match list[0]
        case Bare(name) => [(name, Inline)]
        case Record(entries) => entries;
      head + ListLeaves(list[1..])
  }

  /** An operation written back as a one-entry record. */
  function Encode(o: Op): RuleEntry {
    match o.operator
    case Is => (o.pattern, o.config)
    case StartsWith => (o.pattern + "*", o.config)
  }

  /** An operation list written back as a declaration, one record per operation. */
  function EncodeRules(ops: seq<Op>): (r: seq<InlineRule>)
    ensures |r| == |ops|
    ensures forall i :: 0 <= i < |ops| ==> r[i] == Record([Encode(ops[i])])
  {
    if |ops| == 0 then [] else [Record([Encode(ops[0])])] + EncodeRules(ops[1..])
  }
}

=== FILE: externals_lemmas.dfy ===
/** Properties of the rule normaliser: the default rules, the macros, order
    preservation, and the round trip from operations back to a declaration. */
module ExternalsLemmas {
  import opened Wrappers
  import opened Types
  import opened Externals

  /** A `*`-suffixed name yields one `startsWith` on the name without its
      star; this check comes before the macros, so `(helpers)*` is a prefix
      match on `(helpers)` like any other. */
  lemma StarLeafIsPrefixMatch(name: string, config: ExternalConfig, packageName: string)
    requires EndsWithStar(name)
    ensures var r := NormalizeLeaf(name, config, packageName);
      |r| == 1 && r[0].operator == StartsWith && r[0].pattern + "*" == name && r[0].config == config
  {
  }

  /** `(helpers)` expands to the three helper operations at the caller's config. */
  lemma HelpersMacroExpansion(config: ExternalConfig, packageName: string)
    ensures NormalizeLeaf(HelpersMacro, config, packageName)
         == [Op(StartsWith, "@babel/runtime/", config), Op(Is, "tslib", config), Op(Is, "@swc/core", config)]
  {
    HelperNamesExpansion(config, packageName);
  }

  lemma HelperNamesExpansion(config: ExternalConfig, packageName: string)
    ensures NormalizeNames(Helpers, config, packageName)
         == [Op(StartsWith, "@babel/runtime/", config), Op(Is, "tslib", config), Op(Is, "@swc/core", config)]
  {
    var h := Helpers;
    assert RemoveLast(h[0]) == "@babel/runtime/";
    assert h[1..][1..][1..] == [];
    assert NormalizeNames(h[1..][1..], config, packageName) == [Op(Is, "@swc/core", config)];
    assert NormalizeNames(h[1..], config, packageName) == [Op(Is, "tslib", config), Op(Is, "@swc/core", config)];
  }

  /** `(scope)` yields one `startsWith` on the package's own scope prefix. */
  lemma ScopeMacroOnScopedName(scope: string, config: ExternalConfig, packageName: string)
    requires IsScopePrefix(scope, packageName)
    ensures NormalizeLeaf(ScopeMacro, config, packageName) == [Op(StartsWith, scope, config)]
  {
  }

  /** `(scope)` yields nothing for a name that does not start with `@`. */
  lemma ScopeMacroOnUnscopedName(config: ExternalConfig, packageName: string)
    requires |packageName| == 0 || packageName[0] != '@'
    ensures NormalizeLeaf(ScopeMacro, config, packageName) == []
  {
  }

  /** With no declaration and a scoped name: the helpers inlined, then the
      own scope external. */
  lemma DefaultRulesForScopedName(scope: string, packageName: string)
    requires IsScopePrefix(scope, packageName)
    ensures NormalizeRules(None, packageName)
         == [ Op(StartsWith, "@babel/runtime/", Inline), Op(Is, "tslib", Inline), Op(Is, "@swc/core", Inline)
            , Op(StartsWith, scope, External) ]
  {
    HelperNamesExpansion(Inline, packageName);
  }

  /** With no declaration and a name without a scope: only the helpers. */
  lemma DefaultRulesForUnscopedName(packageName: string)
    requires ScopeOf(packageName).None?
    ensures NormalizeRules(None, packageName)
         == [Op(StartsWith, "@babel/runtime/", Inline), Op(Is, "tslib", Inline), Op(Is, "@swc/core", Inline)]
  {
    HelperNamesExpansion(Inline, packageName);
  }

  lemma DefaultRulesExample()
    ensures NormalizeRules(None, "@s/p")
         == [ Op(StartsWith, "@babel/runtime/", Inline), Op(Is, "tslib", Inline), Op(Is, "@swc/core", Inline)
            , Op(StartsWith, "@s/", External) ]
    ensures |NormalizeRules(None, "plainpkg")| == 3
  {
    assert IsScopePrefix("@s/", "@s/p");
    DefaultRulesForScopedName("@s/", "@s/p");
    DefaultRulesForUnscopedName("plainpkg");
  }

  lemma {:induction false} NormalizeEntriesAppend(a: seq<RuleEntry>, b: seq<RuleEntry>, packageName: string)
    ensures NormalizeEntries(a + b, packageName) == NormalizeEntries(a, packageName) + NormalizeEntries(b, packageName)
    decreases |a|
  {
    if |a| == 0 {
      assert a + b == b;
    } else {
      assert (a + b)[1..] == a[1..] + b;
      NormalizeEntriesAppend(a[1..], b, packageName);
    }
  }

  /** Order preservation: the operations of a concatenated rule list are
      those of its two parts, in order. */
  lemma {:induction false} RuleListAppend(a: seq<InlineRule>, b: seq<InlineRule>, packageName: string)
    ensures NormalizeRules(Some(RuleList(a + b)), packageName)
         == NormalizeRules(Some(RuleList(a)), packageName) + NormalizeRules(Some(RuleList(b)), packageName)
    decreases |a|
  {
    if |a| == 0 {
      assert a + b == b;
    } else {
      assert (a + b)[1..] == a[1..] + b;
      RuleListAppend(a[1..], b, packageName);
    }
  }

  lemma {:induction false} ListLeavesNormalize(list: seq<InlineRule>, packageName: string)
    ensures NormalizeRuleList(list, packageName) == NormalizeEntries(ListLeaves(list), packageName)
    decreases |list|
  {
    if |list| > 0 {
      ListLeavesNormalize(list[1..], packageName);
      var head := match list[0]
        case Bare(name) => [(name, Inline)]
        case Record(entries) => entries;
      NormalizeEntriesAppend(head, ListLeaves(list[1..]), packageName);
      if list[0].Bare? {
        assert NormalizeEntries(head, packageName) == NormalizeLeaf(list[0].name, Inline, packageName) + [];
      }
    }
  }

  /** A declared rule set normalises leaf by leaf: flatten it (bare names
      become `inline` leaves, records keep their configs), then normalise
      each leaf in order. */
  lemma RulesNormalizeLeafByLeaf(rules: InlineRules, packageName: string)
    ensures NormalizeRules(Some(rules), packageName) == NormalizeEntries(Leaves(rules), packageName)
  {
    if rules.RuleList? {
      ListLeavesNormalize(rules.rules, packageName);
    }
  }

  /** In an array a bare name is normalised at `inline`, and a record,
      nested or top-level, at its own configs. */
  lemma ArrayElementConfigs(name: string, entries: seq<RuleEntry>, packageName: string)
    ensures NormalizeRules(Some(RuleList([Bare(name)])), packageName) == NormalizeLeaf(name, Inline, packageName)
    ensures NormalizeRules(Some(RuleList([Record(entries)])), packageName)
         == NormalizeRules(Some(RuleRecord(entries)), packageName)
  {
    assert NormalizeRuleList([Bare(name)], packageName) == NormalizeLeaf(name, Inline, packageName) + [];
    assert NormalizeRuleList([Record(entries)], packageName) == NormalizeEntries(entries, packageName) + [];
  }

  lemma {:induction false} EntriesOpsComeFromLeaves(entries: seq<RuleEntry>, packageName: string, o: Op)
    requires o in NormalizeEntries(entries, packageName)
    ensures exists i :: 0 <= i < |entries| && o in NormalizeLeaf(entries[i].0, entries[i].1, packageName)
    decreases |entries|
  {
    if o !in NormalizeLeaf(entries[0].0, entries[0].1, packageName) {
      EntriesOpsComeFromLeaves(entries[1..], packageName, o);
      var j :| 0 <= j < |entries[1..]| && o in NormalizeLeaf(entries[1..][j].0, entries[1..][j].1, packageName);
      assert entries[1..][j] == entries[j + 1];
    }
  }

  /** A declared rule set gets no defaults: every operation comes from one
      of the declaration's own leaves. */
  lemma DeclaredRulesAddNoDefaults(rules: InlineRules, packageName: string, o: Op)
    requires o in NormalizeRules(Some(rules), packageName)
    ensures exists i :: 0 <= i < |Leaves(rules)| && o in NormalizeLeaf(Leaves(rules)[i].0, Leaves(rules)[i].1, packageName)
  {
    RulesNormalizeLeafByLeaf(rules, packageName);
    EntriesOpsComeFromLeaves(Leaves(rules), packageName, o);
  }

  /** An operation the normaliser can produce normalises back to itself. */
  lemma LeafRoundTrip(o: Op, packageName: string)
    requires Reproducible(o)
    ensures NormalizeLeaf(Encode(o).0, Encode(o).1, packageName) == [o]
  {
    if o.operator == StartsWith {
      var name := o.pattern + "*";
      assert EndsWithStar(name);
      assert RemoveLast(name) == o.pattern;
    }
  }

  /** Writing operations back as one-entry records and normalising them
      again gives the same operations. */
  lemma {:induction false} RoundTrip(ops: seq<Op>, packageName: string)
    requires forall o :: o in ops ==> Reproducible(o)
    ensures NormalizeRules(Some(RuleList(EncodeRules(ops))), packageName) == ops
    decreases |ops|
  {
    if |ops| > 0 {
      var rules := EncodeRules(ops);
      assert rules[1..] == EncodeRules(ops[1..]);
      RoundTrip(ops[1..], packageName);
      LeafRoundTrip(ops[0], packageName);
      assert NormalizeRule(rules[0], Inline, packageName) == NormalizeEntries([Encode(ops[0])], packageName);
      assert NormalizeEntries([Encode(ops[0])], packageName) == [ops[0]] + [];
      assert ops == [ops[0]] + ops[1..];
    }
  }

  /** Normalisation is idempotent: re-normalising its output, each operation
      as a one-entry record, reproduces the output. */
  lemma NormalizeIsIdempotent(rules: Option<InlineRules>, packageName: string)
    ensures var ops := NormalizeRules(rules, packageName);
      NormalizeRules(Some(RuleList(EncodeRules(ops))), packageName) == ops
  {
    RoundTrip(NormalizeRules(rules, packageName), packageName);
  }

  /** Only produced operations round-trip: an `is` on the macro name is
      re-read as the macro. */
  lemma MacroPatternDoesNotRoundTrip(packageName: string)
    ensures !Reproducible(Op(Is, HelpersMacro, Inline))
    ensures NormalizeLeaf(Encode(Op(Is, HelpersMacro, Inline)).0, Inline, packageName) != [Op(Is, HelpersMacro, Inline)]
  {
    HelpersMacroExpansion(Inline, packageName);
  }
}

=== FILE: package.dfy ===
/** The pure part of `buildPackage` in `src/package.ts`: from a parsed
    manifest and its root directory to a package descriptor, or to no
    descriptor (with a warning) when no main entry point is found. Whether
    `src/index.ts` exists under the root is a parameter. */
module Package {
  import opened Wrappers
  import opened Types
  import opened Externals
  import opened PackageMeta
  import opened Strict

  /** The errors a build can throw. `UntypedRules` and `UntypedStrict` stand
      for settings whose JSON shape is outside their declared types. */
  datatype BuildError =
    | MetaShape(root: string, value: JsonValue)
    | InvalidTypeValue(value: JsonValue)
    | MainNotString(main: Option<JsonValue>)
    | UntypedRules(value: JsonValue)
    | UntypedStrict(value: JsonValue)

  /** `StarbeamInfo`; `kind` is the `type` setting. */
  datatype StarbeamInfo = StarbeamInfo(
    inline: seq<Op>,
    strict: StrictSettings,
    source: Option<JsonValue>,
    jsx: Option<JsonValue>,
    kind: string,
    entry: JsonValue)

  /** `PackageInfo`, the descriptor. */
  datatype PackageInfo = PackageInfo(
    name: string,
    main: Option<JsonValue>,
    entry: JsonValue,
    root: string,
    dependencies: JsonValue,
    starbeam: StarbeamInfo)

  /** A build's outcome and the warnings it printed on the way. */
  datatype Built = Built(result: Result<Option<PackageInfo>, BuildError>, warnings: seq<Warning>)

  /** `meta.map(path, transform)` for a transform that may itself throw: the
      transform's outcome on the value `meta.get(path)` selects, or the
      accessor's own error. */
  function MetaMap<T>(root: string, json: JsonObject, path: Setting, transform: Option<JsonValue> -> Result<T, BuildError>)
    : (r: Result<T, BuildError>)
    ensures GetPackageValue(root, json, path).Success? ==> r == transform(GetPackageValue(root, json, path).value)
    ensures GetPackageValue(root, json, path).Failure? ==>
              r == Failure(MetaShape(root, GetPackageValue(root, json, path).error.value))
  {
    TransformAppliedToSelectedValue(root, json, path, transform);
    match GetPackageMeta(root, json, path, transform)
    case Failure(e) => Failure(MetaShape(e.root, e.value))
    case Success(inner) => inner
  }

  function DecodeConfig(v: JsonValue): Option<ExternalConfig> {
    if v == JString("inline") then Some(Inline)
    else if v == JString("external") then Some(External)
    else None
  }

  function DecodeRecord(entries: JsonObject): Option<seq<RuleEntry>> {
    if |entries| == 0 then Some([])
    else
      match (DecodeConfig(entries[0].1), DecodeRecord(entries[1..]))
      case (Some(c), Some(rest)) => Some([(entries[0].0, c)] + rest)
      case _ => None
  }

  function DecodeRule(v: JsonValue): Option<InlineRule> {
    match v
    case JString(name) => Some(Bare(name))
    case JObject(entries) =>
      (match DecodeRecord(entries)
       case Some(record) => Some(Record(record))
       case None => None)
    case _ => None
  }

  function DecodeRuleList(items: seq<JsonValue>): Option<seq<InlineRule>> {
    if |items| == 0 then Some([])
    else
      match (DecodeRule(items[0]), DecodeRuleList(items[1..]))
      case (Some(rule), Some(rest)) => Some([rule] + rest)
      case _ => None
  }

  /** The `inline` setting read at its declared type `InlineRules`. */
  function DecodeRules(v: Option<JsonValue>): Result<Option<InlineRules>, BuildError> {
    match v
    case None => Success(None)
    case Some(JArray(items)) =>
      (match DecodeRuleList(items)
       case Some(list) => Success(Some(RuleList(list)))
       case None => Failure(UntypedRules(v.value)))
    case Some(JObject(entries)) =>
      (match DecodeRecord(entries)
       case Some(record) => Success(Some(RuleRecord(record)))
       case None => Failure(UntypedRules(v.value)))
    case Some(other) => Failure(UntypedRules(other))
  }

  /** The `strict` setting read at its declared type, a record. */
  function DecodeStrict(v: Option<JsonValue>): Result<Option<JsonObject>, BuildError> {
    match v
    case None => Success(None)
    case Some(JObject(entries)) => Success(Some(entries))
    case Some(other) => Failure(UntypedStrict(other))
  }

  /** The `type` setting: a string is kept, `undefined` defaults by the
      manifest's `private` flag, anything else (`null` included) throws. */
  function ResolveType(value: Option<JsonValue>, private: Option<JsonValue>): (r: Result<string, BuildError>)
    ensures r.Failure? <==> value.Some? && !value.value.JString?
    ensures r.Failure? ==> r.error == InvalidTypeValue(value.value)
    ensures value.None? ==> r == Success(if Truthy(private) then "library:private" else "library:public")
    ensures value.Some? && value.value.JString? ==> r == Success(value.value.str)
  {
    match value
    case None => Success(if Truthy(private) then "library:private" else "library:public")
    case Some(JString(s)) => Success(s)
    case Some(other) => Failure(InvalidTypeValue(other))
  }

  predicate EndsWith(s: string, suffix: string) {
    |suffix| <= |s| && s[|s| - |suffix|..] == suffix
  }

  /** The entry record `{index: path}`. */
  function IndexEntry(path: string): JsonValue {
    JObject([("index", JString(path))])
  }

  /** The `entry` setting: a string names the `index` entry, an object
      (`typeof` "object", so also an array or `null`) is kept, and otherwise
      a `.ts` main, then an existing `src/index.ts`, then nothing. A main that
      is not a string has no `endsWith` and throws. */
  function ResolveEntry(entry: Option<JsonValue>, main: Option<JsonValue>, srcIndexExists: bool)
    : (r: Result<Option<JsonValue>, BuildError>)
    ensures entry.Some? && entry.value.JString? ==> r == Success(Some(IndexEntry(entry.value.str)))
    ensures entry.Some? && IsObjectType(entry.value) ==> r == Success(entry)
    ensures r.Failure? <==> (entry.None? || entry.value.JNumber? || entry.value.JBool?) && !(main.Some? && main.value.JString?)
    ensures r.Failure? ==> r.error == MainNotString(main)
  {
    if entry.Some? && entry.value.JString? then Success(Some(IndexEntry(entry.value.str)))
    else if entry.Some? && IsObjectType(entry.value) then Success(entry)
    else
      match main
      case Some(JString(m)) =>
        if EndsWith(m, ".ts") then Success(Some(IndexEntry(m)))
        else if srcIndexExists then Success(Some(IndexEntry("src/index.ts")))
        else Success(None)
      case _ => Failure(MainNotString(main))
  }

  /** `entry?.["index"]`: only an object has an `index` property. */
  function MainEntry(entry: Option<JsonValue>): (r: Option<JsonValue>)
    ensures r.Some? ==> entry.Some? && entry.value.JObject? && ("index", r.value) in entry.value.entries
    ensures !(entry.Some? && entry.value.JObject?) ==> r.None?
    ensures entry.Some? && entry.value.JObject? && (exists i :: 0 <= i < |entry.value.entries| && entry.value.entries[i].0 == "index")
            ==> r.Some?
    ensures forall path :: entry == Some(IndexEntry(path)) ==> r == Some(JString(path))
  {
    match entry
    case Some(JObject(entries)) => Get(entries, "index")
    case _ => None
  }

  /** `json.dependencies ?? {}`. */
  function Dependencies(json: JsonObject): (r: JsonValue)
    ensures r == JObject([]) || Some(r) == Get(json, "dependencies")
    ensures Get(json, "dependencies").Some? && !Get(json, "dependencies").value.JNull? ==> Some(r) == Get(json, "dependencies")
    ensures Get(json, "dependencies").None? || Get(json, "dependencies") == Some(JNull) ==> r == JObject([])
  {
    match Get(json, "dependencies")
    case None => JObject([])
    case Some(JNull) => JObject([])
    case Some(v) => v
  }

  /** The manifest's `name`, a string by the manifest's declared type. */
  predicate NameIsString(json: JsonObject) {
    Get(json, "name").Some? && Get(json, "name").value.JString?
  }

  function Name(json: JsonObject): string
    requires NameIsString(json)
  {
    Get(json, "name").value.str
  }

  /** The entry the `entry` setting resolves to, or the error it throws. */
  function ResolvedEntry(root: string, json: JsonObject, srcIndexExists: bool): Result<Option<JsonValue>, BuildError> {
    MetaMap(root, json, EntrySetting, v => ResolveEntry(v, Get(json, "main"), srcIndexExists))
  }

  /** `buildPackage` after the manifest has been read and parsed. The
      settings are read in the source's order (`inline`, `strict`, `type`,
      `jsx`, `source`, `entry`), so the first one that throws decides the
      error; the warnings of `strict` are printed before a later throw. */
  function BuildPackage(root: string, json: JsonObject, srcIndexExists: bool): (r: Built)
    requires NameIsString(json)
    ensures r.result.Success? && r.result.value.Some? ==>
      var d := r.result.value.value;
      && d.name == Name(json) && d.root == root && d.main == Get(json, "main")
      && Truthy(Some(d.entry))
      && MainEntry(Some(d.starbeam.entry)) == Some(d.entry)
      && d.dependencies == Dependencies(json)
    ensures r.result.Success? ==>
      && ResolvedEntry(root, json, srcIndexExists).Success?
      && (r.result.value.Some? <==> Truthy(MainEntry(ResolvedEntry(root, json, srcIndexExists).value)))
    ensures r.result == Success(None) ==> |r.warnings| > 0 && r.warnings[|r.warnings| - 1] == NoMainEntry(Name(json), root)
    ensures r.result.Failure? <==>
      || MetaMap(root, json, InlineSetting, DecodeRules).Failure?
      || MetaMap(root, json, StrictSetting, DecodeStrict).Failure?
      || MetaMap(root, json, TypeSetting, v => ResolveType(v, Get(json, "private"))).Failure?
      || GetPackageValue(root, json, JsxSetting).Failure?
      || GetPackageValue(root, json, SourceSetting).Failure?
      || ResolvedEntry(root, json, srcIndexExists).Failure?
    ensures r.result == Success(None) ==>
      r.warnings == Expand(MetaMap(root, json, StrictSetting, DecodeStrict).value).warnings + [NoMainEntry(Name(json), root)]
    ensures r.result.Success? && r.result.value.Some? ==>
      var d := r.result.value.value;
      var inline := GetPackageValue(root, json, InlineSetting);
      var strict := GetPackageValue(root, json, StrictSetting);
      && inline.Success? && DecodeRules(inline.value).Success?
      && d.starbeam.inline == NormalizeRules(DecodeRules(inline.value).value, Name(json))
      && strict.Success? && DecodeStrict(strict.value).Success?
      && d.starbeam.strict == Expand(DecodeStrict(strict.value).value).settings
      && r.warnings == Expand(DecodeStrict(strict.value).value).warnings
    ensures r.result.Success? && r.result.value.Some? ==>
      var d := r.result.value.value;
      && GetPackageValue(root, json, TypeSetting).Success?
      && ResolveType(GetPackageValue(root, json, TypeSetting).value, Get(json, "private")) == Success(d.starbeam.kind)
      && GetPackageValue(root, json, JsxSetting) == Success(d.starbeam.jsx)
      && GetPackageValue(root, json, SourceSetting) == Success(d.starbeam.source)
      && ResolvedEntry(root, json, srcIndexExists) == Success(Some(d.starbeam.entry))
  {
    var rules := MetaMap(root, json, InlineSetting, DecodeRules);
    if rules.Failure? then Built(Failure(rules.error), []) else
    var strictJson := MetaMap(root, json, StrictSetting, DecodeStrict);
    if strictJson.Failure? then Built(Failure(strictJson.error), []) else
    var strict := Expand(strictJson.value);
    var rest := Complete(root, json, srcIndexExists, NormalizeRules(rules.value, Name(json)), strict.settings);
    Built(rest.result, strict.warnings + rest.warnings)
  }

  /** The build once `inline` and `strict` are read: `type`, `jsx`, `source`
      and `entry` are read in that order, the first read that throws decides
      the error, and otherwise the descriptor is built exactly when the
      resolved entry has a truthy `index`, with a warning when it is not. */
  function Complete(root: string, json: JsonObject, srcIndexExists: bool, inline: seq<Op>, strict: StrictSettings): (r: Built)
    requires NameIsString(json)
    ensures var kind := MetaMap(root, json, TypeSetting, v => ResolveType(v, Get(json, "private")));
      var jsx := GetPackageValue(root, json, JsxSetting);
      var source := GetPackageValue(root, json, SourceSetting);
      var entry := ResolvedEntry(root, json, srcIndexExists);
      && (r.result.Failure? <==> kind.Failure? || jsx.Failure? || source.Failure? || entry.Failure?)
      && (kind.Failure? ==> r.result == Failure(kind.error))
      && (kind.Success? && jsx.Failure? ==> r.result == Failure(MetaShape(root, jsx.error.value)))
      && (kind.Success? && jsx.Success? && source.Failure? ==> r.result == Failure(MetaShape(root, source.error.value)))
      && (kind.Success? && jsx.Success? && source.Success? && entry.Failure? ==> r.result == Failure(entry.error))
      && (r.result.Success? ==> entry.Success? && (r.result.value.Some? <==> Truthy(MainEntry(entry.value))))
      && (r.result.Success? && r.result.value.Some? ==>
            var d := r.result.value.value;
            && d.name == Name(json) && d.root == root && d.main == Get(json, "main")
            && Truthy(Some(d.entry))
            && MainEntry(Some(d.starbeam.entry)) == Some(d.entry)
            && d.dependencies == Dependencies(json)
            && d.starbeam.inline == inline && d.starbeam.strict == strict
            && kind == Success(d.starbeam.kind)
            && jsx == Success(d.starbeam.jsx) && source == Success(d.starbeam.source)
            && entry == Success(Some(d.starbeam.entry)))
    ensures r.warnings == if r.result == Success(None) then [NoMainEntry(Name(json), root)] else []
  {
    var kind := MetaMap(root, json, TypeSetting, v => ResolveType(v, Get(json, "private")));
    if kind.Failure? then Built(Failure(kind.error), []) else
    var jsx := GetPackageValue(root, json, JsxSetting);
    if jsx.Failure? then Built(Failure(MetaShape(root, jsx.error.value)), []) else
    var source := GetPackageValue(root, json, SourceSetting);
    if source.Failure? then Built(Failure(MetaShape(root, source.error.value)), []) else
    var entry := ResolvedEntry(root, json, srcIndexExists);
    if entry.Failure? then Built(Failure(entry.error), []) else
    var mainEntry := MainEntry(entry.value);
    if Truthy(mainEntry) then
      var info := StarbeamInfo(inline, strict, source.value, jsx.value, kind.value, entry.value.value);
      Built(Success(Some(PackageInfo(Name(json), Get(json, "main"), mainEntry.value, root, Dependencies(json), info))), [])
    else
      Built(Success(None), [NoMainEntry(Name(json), root)])
  }

}

=== FILE: package_lemmas.dfy ===
/** Properties of the descriptor builder: the decoding of the declared
    settings, the entry-point fallback chain, and whole builds. */
module PackageLemmas {
  import opened Wrappers
  import opened Types
  import opened Externals
  import opened PackageMeta
  import opened Strict
  import opened Package
  import opened StrictLemmas

  function ConfigJson(c: ExternalConfig): JsonValue {
    match c
    case Inline => JString("inline")
    case External => JString("external")
  }

  function RecordJson(entries: seq<RuleEntry>): (r: JsonObject)
    ensures |r| == |entries|
  {
    if |entries| == 0 then [] else [(entries[0].0, ConfigJson(entries[0].1))] + RecordJson(entries[1..])
  }

  function RuleJson(rule: InlineRule): JsonValue {
    match rule
    case Bare(name) => JString(name)
    case Record(entries) => JObject(RecordJson(entries))
  }

  function RuleListJson(list: seq<InlineRule>): seq<JsonValue> {
    if |list| == 0 then [] else [RuleJson(list[0])] + RuleListJson(list[1..])
  }

  /** A rule declaration written as manifest JSON. */
  function RulesJson(rules: InlineRules): JsonValue {
    match rules
    case RuleList(list) => JArray(RuleListJson(list))
    case RuleRecord(entries) => JObject(RecordJson(entries))
  }

  lemma {:induction false} RecordRoundTrip(entries: seq<RuleEntry>)
    ensures DecodeRecord(RecordJson(entries)) == Some(entries)
    decreases |entries|
  {
    if |entries| > 0 {
      RecordRoundTrip(entries[1..]);
      assert RecordJson(entries)[1..] == RecordJson(entries[1..]);
      assert [(entries[0].0, entries[0].1)] + entries[1..] == entries;
    }
  }

  lemma {:induction false} RuleListRoundTrip(list: seq<InlineRule>)
    ensures DecodeRuleList(RuleListJson(list)) == Some(list)
    decreases |list|
  {
    if |list| > 0 {
      RuleListRoundTrip(list[1..]);
      if list[0].Record? {
        RecordRoundTrip(list[0].entries);
      }
      assert RuleListJson(list)[1..] == RuleListJson(list[1..]);
      assert [list[0]] + list[1..] == list;
    }
  }

  /** Every declaration of the declared type is read back exactly from its
      JSON form. */
  lemma DecodeRulesRoundTrip(rules: InlineRules)
    ensures DecodeRules(Some(RulesJson(rules))) == Success(Some(rules))
  {
    match rules
    case RuleList(list) => RuleListRoundTrip(list);
    case RuleRecord(entries) => RecordRoundTrip(entries);
  }

  /** A string entry names an `index` entry point, usable iff non-empty. */
  lemma StringEntryHasIndex(s: string, main: Option<JsonValue>, srcIndexExists: bool)
    ensures var r := ResolveEntry(Some(JString(s)), main, srcIndexExists);
      r.Success? && (Truthy(MainEntry(r.value)) <==> s != "")
  {
  }

  /** With no usable `entry` setting, an entry point is found iff the main
      ends in `.ts` or `src/index.ts` exists, and the main comes first: the
      entry is `{index: main}`, else `{index: "src/index.ts"}`, else none. */
  lemma FallbackChain(entry: Option<JsonValue>, main: string, srcIndexExists: bool)
    requires entry.None? || entry.value.JNumber? || entry.value.JBool?
    ensures var r := ResolveEntry(entry, Some(JString(main)), srcIndexExists);
      && r.Success?
      && (Truthy(MainEntry(r.value)) <==> EndsWith(main, ".ts") || srcIndexExists)
      && (EndsWith(main, ".ts") ==> r.value == Some(IndexEntry(main)))
      && (!EndsWith(main, ".ts") && srcIndexExists ==> r.value == Some(IndexEntry("src/index.ts")))
      && (!EndsWith(main, ".ts") && !srcIndexExists ==> r.value.None?)
  {
  }

  /** An array or `null` entry setting is kept as is and has no `index`. */
  lemma ArrayOrNullEntryHasNoIndex(entry: JsonValue, main: Option<JsonValue>, srcIndexExists: bool)
    requires entry.JArray? || entry.JNull?
    ensures ResolveEntry(Some(entry), main, srcIndexExists) == Success(Some(entry))
    ensures MainEntry(Some(entry)).None?
  {
  }

  /** A truthy non-object `starbeam` value makes the build throw at its first
      setting (`inline`) unless that setting has a truthy flat key. */
  lemma MalformedNamespaceFails(root: string, json: JsonObject, srcIndexExists: bool)
    requires NameIsString(json)
    requires Truthy(Get(json, NamespaceKey)) && !IsObjectType(Get(json, NamespaceKey).value)
    requires !Truthy(Get(json, FlatKey(InlineSetting)))
    ensures BuildPackage(root, json, srcIndexExists) == Built(Failure(MetaShape(root, Get(json, NamespaceKey).value)), [])
  {
  }

  /** A manifest with no starbeam settings at all: the default rules, the
      permissive strictness, a type from `private`, and the entry fallback. */
  lemma UndeclaredSettingsUseDefaults(root: string, json: JsonObject, srcIndexExists: bool)
    requires NameIsString(json)
    requires Get(json, NamespaceKey).None?
    requires forall path :: Get(json, FlatKey(path)).None?
    requires Get(json, "main").Some? && Get(json, "main").value.JString?
    ensures var r := BuildPackage(root, json, srcIndexExists).result;
      r.Success? && r.value.Some? ==>
      var d := r.value.value;
      && d.starbeam.inline == NormalizeRules(None, Name(json))
      && d.starbeam.strict == StrictSettings(Some(Allow))
      && d.starbeam.kind == (if Truthy(Get(json, "private")) then "library:private" else "library:public")
      && d.starbeam.jsx.None? && d.starbeam.source.None?
    ensures BuildPackage(root, json, srcIndexExists).result.Success?
    ensures ResolvedEntry(root, json, srcIndexExists) == ResolveEntry(None, Get(json, "main"), srcIndexExists)
    ensures BuildPackage(root, json, srcIndexExists).warnings
         == if BuildPackage(root, json, srcIndexExists).result.value.None? then [NoMainEntry(Name(json), root)] else []
  {
    assert Get(json, FlatKey(InlineSetting)).None?;
    assert Get(json, FlatKey(StrictSetting)).None?;
    assert Get(json, FlatKey(TypeSetting)).None?;
    assert Get(json, FlatKey(JsxSetting)).None?;
    assert Get(json, FlatKey(SourceSetting)).None?;
    assert Get(json, FlatKey(EntrySetting)).None?;
    assert MetaMap(root, json, InlineSetting, DecodeRules) == Success(None);
    assert MetaMap(root, json, StrictSetting, DecodeStrict) == Success(None);
    assert ResolvedEntry(root, json, srcIndexExists) == ResolveEntry(None, Get(json, "main"), srcIndexExists);
  }

  /** Declared rules reach the descriptor: `starbeam:inline` rules are
      normalised for the package's own name, with no defaults. */
  lemma DeclaredRulesReachDescriptor(root: string, json: JsonObject, srcIndexExists: bool, rules: InlineRules)
    requires NameIsString(json)
    requires Get(json, FlatKey(InlineSetting)) == Some(RulesJson(rules))
    ensures var r := BuildPackage(root, json, srcIndexExists).result;
      r.Success? && r.value.Some? ==> r.value.value.starbeam.inline == NormalizeRules(Some(rules), Name(json))
  {
    DecodeRulesRoundTrip(rules);
    assert GetPackageValue(root, json, InlineSetting) == Success(Some(RulesJson(rules)));
  }

  /** A declared strictness record reaches the descriptor: `starbeam:strict`
      resolves `externals` by the reference reading. */
  lemma DeclaredStrictReachesDescriptor(root: string, json: JsonObject, srcIndexExists: bool, strict: JsonObject)
    requires NameIsString(json)
    requires Get(json, FlatKey(StrictSetting)) == Some(JObject(strict))
    ensures var r := BuildPackage(root, json, srcIndexExists).result;
      r.Success? && r.value.Some? ==> r.value.value.starbeam.strict.externals == ExpectedExternals(strict)
  {
    ExpandMatchesReference(strict);
    assert GetPackageValue(root, json, StrictSetting) == Success(Some(JObject(strict)));
    assert DecodeStrict(Some(JObject(strict))) == Success(Some(strict));
  }

  /** Truthy declared `type`, `jsx` and `source` values are stored as
      declared, each in its own descriptor field. */
  lemma DeclaredValuesReachDescriptor(root: string, json: JsonObject, srcIndexExists: bool)
    requires NameIsString(json)
    ensures var r := BuildPackage(root, json, srcIndexExists).result;
      r.Success? && r.value.Some? ==>
      var d := r.value.value;
      && (Truthy(Get(json, FlatKey(TypeSetting))) && Get(json, FlatKey(TypeSetting)).value.JString?
          ==> d.starbeam.kind == Get(json, FlatKey(TypeSetting)).value.str)
      && (Truthy(Get(json, FlatKey(JsxSetting))) ==> d.starbeam.jsx == Get(json, FlatKey(JsxSetting)))
      && (Truthy(Get(json, FlatKey(SourceSetting))) ==> d.starbeam.source == Get(json, FlatKey(SourceSetting)))
  {
  }

  /** `{name: "@x/y", main: "index.mjs"}`. */
  const NoEntryManifest: JsonObject := [("name", JString("@x/y")), ("main", JString("index.mjs"))]

  /** `{name: "z", main: "index.ts"}`. */
  const MainTsManifest: JsonObject := [("name", JString("z")), ("main", JString("index.ts"))]

  /** A manifest with only `name` and `main` declares no setting. */
  lemma NoSettingsReads(root: string, json: JsonObject)
    requires |json| == 2 && json[0].0 == "name" && json[1].0 == "main"
    ensures forall path :: Get(json, FlatKey(path)).None?
    ensures Get(json, NamespaceKey).None?
    ensures Get(json, "private").None?
  {
    forall path ensures Get(json, FlatKey(path)).None? {
      assert FlatKey(path)[..9] == "starbeam:";
      assert json[0].0[..4] == "name";
      assert json[1].0[..4] == "main";
    }
  }

  /** Without `src/index.ts`: no descriptor, and one warning naming the
      package and its root. */
  lemma NoEntryExample(root: string)
    ensures NameIsString(NoEntryManifest)
    ensures BuildPackage(root, NoEntryManifest, false) == Built(Success(None), [NoMainEntry("@x/y", root)])
  {
    NoSettingsReads(root, NoEntryManifest);
    UndeclaredSettingsUseDefaults(root, NoEntryManifest, false);
    assert Get(NoEntryManifest, "main") == Some(JString("index.mjs"));
    assert !EndsWith("index.mjs", ".ts");
    FallbackChain(None, "index.mjs", false);
  }

  /** The manifest's entry resolves to `{index: "index.ts"}`. */
  lemma MainTsEntry(root: string, srcIndexExists: bool)
    ensures ResolvedEntry(root, MainTsManifest, srcIndexExists) == Success(Some(IndexEntry("index.ts")))
  {
    NoSettingsReads(root, MainTsManifest);
    assert Get(MainTsManifest, "main") == Some(JString("index.ts"));
    assert EndsWith("index.ts", ".ts");
    FallbackChain(None, "index.ts", srcIndexExists);
  }

  /** A descriptor is built, with entry `{index: "index.ts"}`. */
  lemma MainTsExample(root: string, srcIndexExists: bool)
    ensures NameIsString(MainTsManifest)
    ensures var r := BuildPackage(root, MainTsManifest, srcIndexExists);
      && r.result.Success? && r.result.value.Some?
      && r.result.value.value.starbeam.entry == IndexEntry("index.ts")
      && r.result.value.value.entry == JString("index.ts")
  {
    NoSettingsReads(root, MainTsManifest);
    UndeclaredSettingsUseDefaults(root, MainTsManifest, srcIndexExists);
    MainTsEntry(root, srcIndexExists);
    assert MainEntry(Some(IndexEntry("index.ts"))) == Some(JString("index.ts"));
  }

  /** The descriptor's type is `library:public` and its dependencies `{}`. */
  lemma MainTsDefaults(root: string, srcIndexExists: bool)
    ensures NameIsString(MainTsManifest)
    ensures var r := BuildPackage(root, MainTsManifest, srcIndexExists);
      r.result.Success? && r.result.value.Some? ==>
      && r.result.value.value.starbeam.kind == "library:public"
      && r.result.value.value.dependencies == JObject([])
  {
    NoSettingsReads(root, MainTsManifest);
    UndeclaredSettingsUseDefaults(root, MainTsManifest, srcIndexExists);
    assert Get(MainTsManifest, "dependencies").None?;
  }

  /** Which error a failing build throws and what it printed first: the
      settings are read in the order `inline`, `strict`, `type`, `jsx`,
      `source`, `entry`; the first read that throws decides the error; a
      throw at `inline` or `strict` comes before any warning, and a later
      throw keeps the warnings `strict` printed. */
  lemma FirstFailingReadDecides(root: string, json: JsonObject, srcIndexExists: bool)
    requires NameIsString(json)
    ensures var rules := MetaMap(root, json, InlineSetting, DecodeRules);
      rules.Failure? ==> BuildPackage(root, json, srcIndexExists) == Built(Failure(rules.error), [])
    ensures var rules := MetaMap(root, json, InlineSetting, DecodeRules);
      var strict := MetaMap(root, json, StrictSetting, DecodeStrict);
      rules.Success? && strict.Failure? ==> BuildPackage(root, json, srcIndexExists) == Built(Failure(strict.error), [])
    ensures var rules := MetaMap(root, json, InlineSetting, DecodeRules);
      var strict := MetaMap(root, json, StrictSetting, DecodeStrict);
      rules.Success? && strict.Success? && BuildPackage(root, json, srcIndexExists).result.Failure? ==> BuildPackage(root, json, srcIndexExists).warnings == Expand(strict.value).warnings
    ensures var kind := MetaMap(root, json, TypeSetting, v => ResolveType(v, Get(json, "private")));
      var jsx := GetPackageValue(root, json, JsxSetting);
      var source := GetPackageValue(root, json, SourceSetting);
      var entry := ResolvedEntry(root, json, srcIndexExists);
      && MetaMap(root, json, InlineSetting, DecodeRules).Success?
      && MetaMap(root, json, StrictSetting, DecodeStrict).Success?
      ==> && (kind.Failure? ==> BuildPackage(root, json, srcIndexExists).result == Failure(kind.error))
          && (kind.Success? && jsx.Failure? ==> BuildPackage(root, json, srcIndexExists).result == Failure(MetaShape(root, jsx.error.value)))
          && (kind.Success? && jsx.Success? && source.Failure? ==> BuildPackage(root, json, srcIndexExists).result == Failure(MetaShape(root, source.error.value)))
          && (kind.Success? && jsx.Success? && source.Success? && entry.Failure? ==> BuildPackage(root, json, srcIndexExists).result == Failure(entry.error))
  {
  }

  /** `{name: "a", main: "x.ts", "starbeam:strict": {externals: "bogus"},
      "starbeam:type": 5}`. */
  const TypeErrorManifest: JsonObject :=
    [("name", JString("a")), ("main", JString("x.ts")),
     ("starbeam:strict", JObject([("externals", JString("bogus"))])),
     ("starbeam:type", JNumber(5))]

  lemma TypeErrorManifestReads(root: string)
    ensures MetaMap(root, TypeErrorManifest, InlineSetting, DecodeRules) == Success(None)
  {
    TypeErrorManifestLookups();
    assert GetPackageValue(root, TypeErrorManifest, InlineSetting) == Success(None);
  }

  lemma TypeErrorManifestStrictRead(root: string)
    ensures MetaMap(root, TypeErrorManifest, StrictSetting, DecodeStrict) == Success(Some([("externals", JString("bogus"))]))
  {
    TypeErrorManifestLookups();
    assert GetPackageValue(root, TypeErrorManifest, StrictSetting) == Success(Some(JObject([("externals", JString("bogus"))])));
  }

  lemma TypeErrorManifestTypeRead(root: string)
    ensures MetaMap(root, TypeErrorManifest, TypeSetting, v => ResolveType(v, Get(TypeErrorManifest, "private")))
         == Failure(InvalidTypeValue(JNumber(5)))
  {
    TypeErrorManifestLookups();
    assert GetPackageValue(root, TypeErrorManifest, TypeSetting) == Success(Some(JNumber(5)));
  }

  lemma TypeErrorManifestLookups()
    ensures Get(TypeErrorManifest, FlatKey(InlineSetting)).None?
    ensures Get(TypeErrorManifest, FlatKey(StrictSetting)) == Some(JObject([("externals", JString("bogus"))]))
    ensures Get(TypeErrorManifest, FlatKey(TypeSetting)) == Some(JNumber(5))
    ensures Get(TypeErrorManifest, NamespaceKey).None?
  {
    assert FlatKey(InlineSetting) == "starbeam:inline";
    assert FlatKey(StrictSetting) == "starbeam:strict";
    assert FlatKey(TypeSetting) == "starbeam:type";
  }

  /** The strictness warning is printed, then the build throws on the
      non-string type. */
  lemma WarningThenTypeErrorExample(root: string, srcIndexExists: bool)
    ensures NameIsString(TypeErrorManifest)
    ensures BuildPackage(root, TypeErrorManifest, srcIndexExists)
         == Built(Failure(InvalidTypeValue(JNumber(5))), [InvalidStrictness("externals", JString("bogus"))])
  {
    TypeErrorManifestReads(root);
    TypeErrorManifestStrictRead(root);
    TypeErrorManifestTypeRead(root);
    FirstFailingReadDecides(root, TypeErrorManifest, srcIndexExists);
    StrictLemmas.ExpandWarnings([("externals", JString("bogus"))]);
  }
}

=== FILE: package_meta.dfy ===
/** The metadata accessor of `src/package-meta.ts`: reads one starbeam
    setting from a manifest, preferring a truthy flat `starbeam:<setting>`
    key over the nested `starbeam` object, and failing when `starbeam` is a
    truthy value that is not an object. */
module PackageMeta {
  import opened Wrappers
  import opened Types

  /** `StarbeamKey`: the setting names a manifest may carry. */
  datatype Setting = InlineSetting | StrictSetting | TypeSetting | JsxSetting | SourceSetting | EntrySetting

  function SettingName(path: Setting): string {
    match path
    case InlineSetting => "inline"
    case StrictSetting => "strict"
    case TypeSetting => "type"
    case JsxSetting => "jsx"
    case SourceSetting => "source"
    case EntrySetting => "entry"
  }

  const NamespaceKey: string := "starbeam"

  function FlatKey(path: Setting): string {
    NamespaceKey + ":" + SettingName(path)
  }

  /** How the error message describes the offending value: as "an array", or
      by its `JSON.stringify` form. */
  datatype Described = AnArray | Stringified(shown: JsonValue)

  /** The error `invalidKey` throws: the root, the offending value and how
      the message describes it. */
  datatype MetaError = InvalidMetadataShape(root: string, value: JsonValue, got: Described)

  /** `invalidKey`. The message's exact wording is not modelled, only which
      of its two descriptions it picks. */
  function InvalidKey(root: string, value: JsonValue): (r: MetaError)
    ensures r.root == root && r.value == value
    ensures r.got == AnArray <==> value.JArray?
    ensures r.got.Stringified? ==> r.got.shown == value
  {
    InvalidMetadataShape(root, value, if value.JArray? then AnArray else Stringified(value))
  }

  /** `value[key]` for a setting name: only an object has such a property. */
  function Property(value: JsonValue, key: string): Option<JsonValue> {
    match value
    case JObject(entries) => Get(entries, key)
    case _ => None
  }

  /** `getPackageMeta(root, json, path, transform)`. */
  function GetPackageMeta<T>(root: string, json: JsonObject, path: Setting, transform: Option<JsonValue> -> T)
    : (r: Result<T, MetaError>)
    ensures Truthy(Get(json, FlatKey(path))) ==> r == Success(transform(Get(json, FlatKey(path))))
    ensures !Truthy(Get(json, FlatKey(path))) && !Truthy(Get(json, NamespaceKey)) ==> r == Success(transform(None))
    ensures !Truthy(Get(json, FlatKey(path))) && Get(json, NamespaceKey) == Some(JObject(NestedOf(json)))
            ==> r == Success(transform(Get(NestedOf(json), SettingName(path))))
    ensures !Truthy(Get(json, FlatKey(path))) && Truthy(Get(json, NamespaceKey)) && Get(json, NamespaceKey).value.JArray?
            ==> r == Success(transform(None))
    ensures r.Failure? <==>
              !Truthy(Get(json, FlatKey(path))) && Truthy(Get(json, NamespaceKey))
              && !IsObjectType(Get(json, NamespaceKey).value)
    ensures r.Failure? ==> r.error == InvalidKey(root, Get(json, NamespaceKey).value)
  {
    var inline := Get(json, FlatKey(path));
    if Truthy(inline) then Success(transform(inline))
    else
      var starbeam := Get(json, NamespaceKey);
      if !Truthy(starbeam) then Success(transform(None))
      else if IsObjectType(starbeam.value) then Success(transform(Property(starbeam.value, SettingName(path))))
      else Failure(InvalidKey(root, starbeam.value))
  }

  /** The entries of the nested `starbeam` object (empty unless it is one). */
  function NestedOf(json: JsonObject): JsonObject {
    match Get(json, NamespaceKey)
    case Some(JObject(entries)) => entries
    case _ => []
  }

  /** `getPackageMeta(root, json, path)`: the overload without a transform,
      which returns the selected value itself. */
  function GetPackageValue(root: string, json: JsonObject, path: Setting): (r: Result<Option<JsonValue>, MetaError>)
    ensures Truthy(Get(json, FlatKey(path))) ==> r == Success(Get(json, FlatKey(path)))
    ensures r.Success? && r.value.Some? ==>
              Truthy(Get(json, FlatKey(path))) || Some(JObject(NestedOf(json))) == Get(json, NamespaceKey)
    ensures r.Success? && r.value.Some? && !Truthy(Get(json, FlatKey(path))) ==>
              r.value == Get(NestedOf(json), SettingName(path))
  {
    GetPackageMeta(root, json, path, v => v)
  }

  /** The transform is applied exactly once, to the value the plain accessor
      selects, and never on the error path: `map` is `get` followed by `transform`. */
  lemma TransformAppliedToSelectedValue<T>(root: string, json: JsonObject, path: Setting, transform: Option<JsonValue> -> T)
    ensures GetPackageMeta(root, json, path, transform)
         == match GetPackageValue(root, json, path)
            case Success(v) => Success(transform(v))
            case Failure(e) => Failure(e)
  {
  }

  /** A truthy flat key wins over any nested `starbeam` value, even a
      malformed one. */
  lemma FlatKeyWinsOverNested<T>(root: string, json: JsonObject, path: Setting, nested: JsonValue, transform: Option<JsonValue> -> T)
    requires Truthy(Get(json, FlatKey(path)))
    ensures GetPackageMeta(root, WithKey(json, NamespaceKey, Some(nested)), path, transform)
         == Success(transform(Get(json, FlatKey(path))))
  {
    assert FlatKey(path) != NamespaceKey by {
      assert |FlatKey(path)| > |NamespaceKey|;
    }
  }

  /** A falsy flat value (`""`, `false`, `0`, `null`) is as good as no flat
      key: the lookup falls through to the nested form. */
  lemma FalsyFlatKeyFallsThrough<T>(root: string, json: JsonObject, path: Setting, flat: Option<JsonValue>, transform: Option<JsonValue> -> T)
    requires !Truthy(flat)
    ensures GetPackageMeta(root, WithKey(json, FlatKey(path), flat), path, transform)
         == GetPackageMeta(root, WithKey(json, FlatKey(path), None), path, transform)
  {
    assert FlatKey(path) != NamespaceKey by {
      assert |FlatKey(path)| > |NamespaceKey|;
    }
  }

  /** An error names a truthy string, number or boolean: arrays (and `null`)
      are never reported, so the array branch of the error message cannot be
      reached from `getPackageMeta`. */
  lemma ErrorValueIsTruthyScalar<T>(root: string, json: JsonObject, path: Setting, transform: Option<JsonValue> -> T)
    requires GetPackageMeta(root, json, path, transform).Failure?
    ensures var e := GetPackageMeta(root, json, path, transform).error;
      && Truthy(Some(e.value)) && (e.value.JString? || e.value.JNumber? || e.value.JBool?)
      && e.got == Stringified(e.value)
  {
  }

  /** `{"starbeam:type": "A", "starbeam": {"type": "B"}}` reads as `"A"`. */
  lemma FlatKeyExample(root: string)
    ensures GetPackageValue(root, [("starbeam:type", JString("A")), ("starbeam", JObject([("type", JString("B"))]))], TypeSetting)
         == Success(Some(JString("A")))
  {
  }
}

=== FILE: strict.dfy ===
/** The strictness resolver of `src/package.ts` (`expand` and
    `verifyValue`): a fold over the declared `(dimension, level)` entries,
    with a `leftover` set of dimensions not yet assigned and the `all.v1`
    catch-all, which assigns only the dimensions still left over. */
module Strict {
  import opened Wrappers
  import opened Types

  const AllKey: string := "all.v1"
  const ExternalsKey: string := "externals"

  /** The recognised dimensions, in the insertion order of the `leftover`
      set (a JavaScript `Set` iterates in insertion order). */
  const Dimensions: seq<string> := [ExternalsKey]

  /** The `StrictSettings` a package exposes. `None` is the `undefined` an
      invalid level leaves behind. */
  datatype StrictSettings = StrictSettings(externals: Option<Strictness>)

  /** A checked level and the warnings checking it printed. */
  datatype Checked = Checked(level: Option<Strictness>, warnings: seq<Warning>)

  predicate IsLevel(value: JsonValue) {
    value == JString("allow") || value == JString("warn") || value == JString("error")
  }

  /** `verifyValue`: a valid level is returned as is; anything else prints a
      warning and yields `undefined`. */
  function VerifyValue(key: string, value: JsonValue): (r: Checked)
    ensures forall s :: r.level == Some(s) <==> value == JString(StrictnessName(s))
    ensures r.level.Some? <==> IsLevel(value)
    ensures r.level.Some? ==> r.warnings == []
    ensures r.level.None? ==> r.warnings == [InvalidStrictness(key, value)]
  {
    if value == JString("allow") then Checked(Some(Allow), [])
    else if value == JString("warn") then Checked(Some(Warn), [])
    else if value == JString("error") then Checked(Some(Error), [])
    else Checked(None, [InvalidStrictness(key, value)])
  }

  /** The state of the fold in `expand`: the `leftover` set, the partial
      `result` record and the warnings printed so far. */
  datatype Expansion = Expansion(leftover: seq<string>, result: map<string, Option<Strictness>>, warnings: seq<Warning>)

  const Initial: Expansion := Expansion(Dimensions, map[], [])

  /** `leftover.delete(key)`. */
  function Delete(keys: seq<string>, key: string): (r: seq<string>)
    ensures forall k :: k in r <==> k in keys && k != key
  {
    if |keys| == 0 then []
    else if keys[0] == key then Delete(keys[1..], key)
    else [keys[0]] + Delete(keys[1..], key)
  }

  /** `for (const key of keys) result[key] = verifyValue(root, key, value)`. */
  function AssignAll(keys: seq<string>, value: JsonValue, e: Expansion): (r: Expansion)
    ensures r.leftover == e.leftover
    ensures forall k :: k in keys ==> k in r.result && r.result[k] == VerifyValue(k, value).level
    ensures forall k :: k !in keys ==> (k in r.result <==> k in e.result)
    ensures forall k :: k !in keys && k in e.result ==> r.result[k] == e.result[k]
    ensures e.warnings <= r.warnings
    ensures IsLevel(value) ==> r.warnings == e.warnings
    ensures !IsLevel(value) ==> |r.warnings| == |e.warnings| + |keys|
    ensures !IsLevel(value) ==>
              forall i :: 0 <= i < |keys| ==> r.warnings[|e.warnings| + i] == InvalidStrictness(keys[i], value)
  {
    if |keys| == 0 then e
    else
      var c := VerifyValue(keys[0], value);
      AssignAll(keys[1..], value, e.(result := e.result[keys[0] := c.level], warnings := e.warnings + c.warnings))
  }

  /** One iteration of the loop over the declared entries: `all.v1` assigns
      every left-over dimension and clears `leftover`; any other key is
      assigned its own checked level and leaves `leftover`. Assignments made
      earlier to keys no longer left over survive. */
  function Step(e: Expansion, key: string, value: JsonValue): (r: Expansion)
    ensures key == AllKey ==> r.leftover == []
    ensures key == AllKey ==> forall k :: k in e.leftover ==> k in r.result && r.result[k] == VerifyValue(k, value).level
    ensures key != AllKey ==> forall k :: k in r.leftover <==> k in e.leftover && k != key
    ensures key != AllKey ==> key in r.result && r.result[key] == VerifyValue(key, value).level
    ensures key != AllKey ==> r.warnings == e.warnings + VerifyValue(key, value).warnings
    ensures forall k :: k in e.result && k != key && k !in e.leftover ==> k in r.result && r.result[k] == e.result[k]
    ensures e.warnings <= r.warnings
    ensures key == AllKey ==> |r.warnings| == |e.warnings| + (if IsLevel(value) then 0 else |e.leftover|)
    ensures key == AllKey && !IsLevel(value) ==>
              forall i :: 0 <= i < |e.leftover| ==> r.warnings[|e.warnings| + i] == InvalidStrictness(e.leftover[i], value)
  {
    if key == AllKey then
      AssignAll(e.leftover, value, e).(leftover := [])
    else
      var c := VerifyValue(key, value);
      Expansion(Delete(e.leftover, key), e.result[key := c.level], e.warnings + c.warnings)
  }

  /** The whole loop: `leftover` only shrinks and warnings only accumulate. */
  function Run(e: Expansion, entries: JsonObject): (r: Expansion)
    ensures forall k :: k in r.leftover ==> k in e.leftover
    ensures e.warnings <= r.warnings
    ensures (forall i :: 0 <= i < |entries| ==> entries[i].0 != AllKey) ==>
              forall k :: k in r.leftover <==> k in e.leftover && forall i :: 0 <= i < |entries| ==> entries[i].0 != k
    decreases |entries|
  {
    if |entries| == 0 then e
    else Run(Step(e, entries[0].0, entries[0].1), entries[1..])
  }

  /** `for (const key of leftover) result[key] = "allow"`. */
  function FillLeftover(keys: seq<string>, result: map<string, Option<Strictness>>): (r: map<string, Option<Strictness>>)
    ensures forall k :: k in keys ==> k in r && r[k] == Some(Allow)
    ensures forall k :: k !in keys ==> (k in r <==> k in result)
    ensures forall k :: k !in keys && k in result ==> r[k] == result[k]
  {
    if |keys| == 0 then result
    else FillLeftover(keys[1..], result[keys[0] := Some(Allow)])
  }

  /** Every recognised dimension is still left over or already assigned, and
      an assigned `undefined` was announced by a warning. */
  ghost predicate Covered(e: Expansion) {
    && (forall k :: k in e.leftover ==> k in Dimensions)
    && (ExternalsKey in e.leftover
        || (ExternalsKey in e.result && (e.result[ExternalsKey].None? ==> |e.warnings| > 0)))
  }

  lemma StepKeepsCovered(e: Expansion, key: string, value: JsonValue)
    requires Covered(e)
    ensures Covered(Step(e, key, value))
    ensures e.warnings <= Step(e, key, value).warnings
  {
  }

  lemma {:induction false} RunKeepsCovered(e: Expansion, entries: JsonObject)
    requires Covered(e)
    ensures Covered(Run(e, entries))
    decreases |entries|
  {
    if |entries| > 0 {
      StepKeepsCovered(e, entries[0].0, entries[0].1);
      RunKeepsCovered(Step(e, entries[0].0, entries[0].1), entries[1..]);
    }
  }

  /** The outcome of `expand`: the settings and the warnings it printed. */
  datatype Expanded = Expanded(settings: StrictSettings, warnings: seq<Warning>)

  /** `expand(root, strictness)`; an undeclared setting is `None`. */
  function Expand(strictness: Option<JsonObject>): (r: Expanded)
    ensures strictness.None? ==> r == Expanded(StrictSettings(Some(Allow)), [])
    ensures r.settings.externals.None? ==> |r.warnings| > 0
  {
    match strictness
    case None => Expanded(StrictSettings(Some(Allow)), [])
    case Some(entries) =>
      RunKeepsCovered(Initial, entries);
      var e := Run(Initial, entries);
      var result := FillLeftover(e.leftover, e.result);
      Expanded(StrictSettings(result[ExternalsKey]), e.warnings)
  }
}

=== FILE: strict_lemmas.dfy ===
/** Properties of the strictness resolver: which declared entry decides the
    `externals` level, and what an invalid level leaves behind. */
module StrictLemmas {
  import opened Wrappers
  import opened Types
  import opened Strict

  /** The value of the last entry with key `key`. */
  function LastValue(entries: JsonObject, key: string): Option<JsonValue>
    decreases |entries|
  {
    if |entries| == 0 then None
    else if entries[|entries| - 1].0 == key then Some(entries[|entries| - 1].1)
    else LastValue(entries[..|entries| - 1], key)
  }

  lemma {:induction false} LastValueCons(x: (string, JsonValue), rest: JsonObject, key: string)
    ensures LastValue([x] + rest, key)
         == if LastValue(rest, key).Some? then LastValue(rest, key)
            else if x.0 == key then Some(x.1) else None
    decreases |rest|
  {
    var all := [x] + rest;
    if |rest| > 0 {
      assert all[|all| - 1] == rest[|rest| - 1];
      if rest[|rest| - 1].0 != key {
        assert all[..|all| - 1] == [x] + rest[..|rest| - 1];
        LastValueCons(x, rest[..|rest| - 1], key);
      }
    }
  }

  /** The reference reading of a strictness declaration: the last explicit
      `externals` entry decides; without one, the first `all.v1` entry;
      without either, `allow`. A deciding entry with an invalid level gives
      `undefined`. */
  function ExpectedExternals(entries: JsonObject): Option<Strictness> {
    match LastValue(entries, ExternalsKey)
    case Some(v) => VerifyValue(ExternalsKey, v).level
    case None =>
      match Get(entries, AllKey)
      case Some(v) => VerifyValue(ExternalsKey, v).level
      case None => Some(Allow)
  }

  /** The fold from any covered state: an `externals` entry in the rest
      decides; otherwise a first `all.v1` decides while `externals` is left
      over; otherwise the state's own value (or `allow`) stands. */
  lemma {:induction false} RunDecidesExternals(e: Expansion, entries: JsonObject)
    requires Covered(e)
    ensures var f := Run(e, entries);
      var result := FillLeftover(f.leftover, f.result);
      && ExternalsKey in result
      && result[ExternalsKey]
         == match LastValue(entries, ExternalsKey)
            case Some(v) => VerifyValue(ExternalsKey, v).level
            case None =>
              if ExternalsKey in e.leftover then
                (match Get(entries, AllKey)
                 case Some(v) => VerifyValue(ExternalsKey, v).level
                 case None => Some(Allow))
              else e.result[ExternalsKey]
    decreases |entries|
  {
    if |entries| > 0 {
      var x := entries[0];
      var rest := entries[1..];
      assert entries == [x] + rest;
      var e' := Step(e, x.0, x.1);
      StepKeepsCovered(e, x.0, x.1);
      RunDecidesExternals(e', rest);
      LastValueCons(x, rest, ExternalsKey);
      if x.0 == AllKey {
        assert ExternalsKey !in e'.leftover;
        if ExternalsKey in e.leftover {
          assert e'.result[ExternalsKey] == VerifyValue(ExternalsKey, x.1).level;
        }
      } else if x.0 == ExternalsKey {
        assert e'.result[ExternalsKey] == VerifyValue(ExternalsKey, x.1).level;
      } else {
        assert ExternalsKey in e'.leftover <==> ExternalsKey in e.leftover;
      }
    }
  }

  /** `expand` agrees with the reference reading on every declaration. */
  lemma ExpandMatchesReference(entries: JsonObject)
    ensures Expand(Some(entries)).settings.externals == ExpectedExternals(entries)
  {
    RunDecidesExternals(Initial, entries);
  }

  /** The reference reading of the warnings: every entry other than `all.v1`
      checks its own level under its own key; an `all.v1` entry checks its
      level under `externals` only while `externals` is still open, that is
      before any `externals` or `all.v1` entry. */
  function ExpectedWarnings(entries: JsonObject, open: bool): seq<Warning>
    decreases |entries|
  {
    if |entries| == 0 then []
    else EntryWarnings(entries[0].0, entries[0].1, open) + ExpectedWarnings(entries[1..], StaysOpen(open, entries[0].0))
  }

  /** The warnings of one entry in the reference reading. */
  function EntryWarnings(k: string, v: JsonValue, open: bool): seq<Warning> {
    if IsLevel(v) then []
    else if k == AllKey then (if open then [InvalidStrictness(ExternalsKey, v)] else [])
    else [InvalidStrictness(k, v)]
  }

  /** Whether `externals` is still open after an entry with key `k`. */
  predicate StaysOpen(open: bool, k: string) {
    open && k != AllKey && k != ExternalsKey
  }

  /** The warning one step appends, from a state whose `leftover` is empty
      or just `externals`, and whether `externals` stays open. */
  lemma StepWarnings(e: Expansion, k: string, v: JsonValue)
    requires e.leftover == [] || e.leftover == [ExternalsKey]
    ensures var e' := Step(e, k, v);
      && (e'.leftover == [] || e'.leftover == [ExternalsKey])
      && (e'.leftover == [ExternalsKey] <==> StaysOpen(e.leftover == [ExternalsKey], k))
      && e'.warnings == e.warnings + EntryWarnings(k, v, e.leftover == [ExternalsKey])
  {
    var e' := Step(e, k, v);
    if k == AllKey {
      if e.leftover == [ExternalsKey] && !IsLevel(v) {
        assert e'.warnings[|e.warnings|] == InvalidStrictness(ExternalsKey, v);
        assert e'.warnings == e.warnings + [InvalidStrictness(ExternalsKey, v)];
      } else {
        assert e'.warnings == e.warnings;
      }
    } else if e.leftover == [ExternalsKey] {
      assert e.leftover[1..] == [];
      assert Delete(e.leftover[1..], k) == [];
    }
  }

  lemma AppendAssociates(a: seq<Warning>, b: seq<Warning>, c: seq<Warning>)
    ensures (a + b) + c == a + (b + c)
  {
  }

  /** One unfolding of the fold and of the reference reading together. */
  lemma RunWarningsStep(e: Expansion, entries: JsonObject)
    requires |entries| > 0
    requires e.leftover == [] || e.leftover == [ExternalsKey]
    ensures var open := e.leftover == [ExternalsKey];
      var e' := Step(e, entries[0].0, entries[0].1);
      && Run(e, entries) == Run(e', entries[1..])
      && (e'.leftover == [] || e'.leftover == [ExternalsKey])
      && (e'.leftover == [ExternalsKey]) == StaysOpen(open, entries[0].0)
      && e'.warnings == e.warnings + EntryWarnings(entries[0].0, entries[0].1, open)
      && ExpectedWarnings(entries, open)
         == EntryWarnings(entries[0].0, entries[0].1, open) + ExpectedWarnings(entries[1..], StaysOpen(open, entries[0].0))
  {
    StepWarnings(e, entries[0].0, entries[0].1);
  }

  /** The fold from a state whose `leftover` is empty or just `externals`
      appends exactly the reference warnings. */
  lemma {:induction false} RunWarnings(e: Expansion, entries: JsonObject)
    requires e.leftover == [] || e.leftover == [ExternalsKey]
    ensures Run(e, entries).warnings == e.warnings + ExpectedWarnings(entries, e.leftover == [ExternalsKey])
    decreases |entries|
  {
    if |entries| > 0 {
      var open := e.leftover == [ExternalsKey];
      var e' := Step(e, entries[0].0, entries[0].1);
      RunWarningsStep(e, entries);
      RunWarnings(e', entries[1..]);
      AppendAssociates(e.warnings, EntryWarnings(entries[0].0, entries[0].1, open),
                       ExpectedWarnings(entries[1..], StaysOpen(open, entries[0].0)));
    }
  }

  /** `expand` prints exactly the reference warnings, in entry order. */
  lemma ExpandWarnings(entries: JsonObject)
    ensures Expand(Some(entries)).warnings == ExpectedWarnings(entries, true)
  {
    RunWarnings(Initial, entries);
  }

  /** An empty declaration reaches `allow` through the leftover loop. */
  lemma EmptyDeclarationAllows()
    ensures Expand(Some([])) == Expanded(StrictSettings(Some(Allow)), [])
  {
  }

  /** A valid explicit `externals` level is the result, wherever `all.v1`
      appears. */
  lemma ExplicitLevelWins(entries: JsonObject, level: Strictness)
    requires LastValue(entries, ExternalsKey) == Some(JString(StrictnessName(level)))
    ensures Expand(Some(entries)).settings.externals == Some(level)
  {
    ExpandMatchesReference(entries);
  }

  /** Without an explicit `externals` entry, the first `all.v1` decides. */
  lemma CatchAllDecidesWhenNoExplicitEntry(entries: JsonObject, level: Strictness)
    requires LastValue(entries, ExternalsKey).None?
    requires Get(entries, AllKey) == Some(JString(StrictnessName(level)))
    ensures Expand(Some(entries)).settings.externals == Some(level)
  {
    ExpandMatchesReference(entries);
  }

  /** An invalid deciding level leaves `externals` undefined, not `allow`,
      although the warning announces a fall-back to `allow`. */
  lemma InvalidLevelLeavesUndefined(entries: JsonObject, value: JsonValue)
    requires LastValue(entries, ExternalsKey) == Some(value)
    requires !IsLevel(value)
    ensures Expand(Some(entries)).settings.externals.None?
    ensures |Expand(Some(entries)).warnings| > 0
  {
    ExpandMatchesReference(entries);
  }

  lemma {:induction false} RunWithValidLevelsWarnsNothing(e: Expansion, entries: JsonObject)
    requires forall i :: 0 <= i < |entries| ==> IsLevel(entries[i].1)
    ensures Run(e, entries).warnings == e.warnings
    decreases |entries|
  {
    if |entries| > 0 {
      RunWithValidLevelsWarnsNothing(Step(e, entries[0].0, entries[0].1), entries[1..]);
    }
  }

  /** Only invalid levels print warnings. */
  lemma ValidLevelsWarnNothing(entries: JsonObject)
    requires forall i :: 0 <= i < |entries| ==> IsLevel(entries[i].1)
    ensures Expand(Some(entries)).warnings == []
  {
    RunWithValidLevelsWarnsNothing(Initial, entries);
  }

  /** The documented examples, in both orders of `all.v1` and `externals`. */
  lemma OrderingExamples()
    ensures Expand(Some([("externals", JString("warn"))])).settings.externals == Some(Warn)
    ensures Expand(Some([("all.v1", JString("error"))])).settings.externals == Some(Error)
    ensures Expand(Some([("all.v1", JString("error")), ("externals", JString("warn"))])).settings.externals == Some(Warn)
    ensures Expand(Some([("externals", JString("warn")), ("all.v1", JString("error"))])).settings.externals == Some(Warn)
  {
    ExplicitLevelWins([("externals", JString("warn"))], Warn);
    CatchAllDecidesWhenNoExplicitEntry([("all.v1", JString("error"))], Error);
    ExplicitLevelWins([("all.v1", JString("error")), ("externals", JString("warn"))], Warn);
    ExplicitLevelWins([("externals", JString("warn")), ("all.v1", JString("error"))], Warn);
  }

  /** `{externals: "bogus"}` prints one warning and leaves `externals`
      undefined; `{all.v1: "bogus"}` warns under the dimension it assigns,
      not under `all.v1`; a bogus `all.v1` after an explicit entry is never
      checked. */
  lemma InvalidLevelExamples()
    ensures Expand(Some([("externals", JString("bogus"))]))
         == Expanded(StrictSettings(None), [InvalidStrictness("externals", JString("bogus"))])
    ensures Expand(Some([("all.v1", JString("bogus"))]))
         == Expanded(StrictSettings(None), [InvalidStrictness("externals", JString("bogus"))])
    ensures Expand(Some([("externals", JString("warn")), ("all.v1", JString("bogus"))]))
         == Expanded(StrictSettings(Some(Warn)), [])
  {
    var e := Step(Initial, AllKey, JString("bogus"));
    assert e.leftover == [];
    assert Run(Initial, [("all.v1", JString("bogus"))]) == Run(e, []);
  }

  /** `{jsx: "x", all.v1: "bogus"}`: an unrecognised key is checked under its
      own name, then `all.v1` under `externals`, in entry order. */
  lemma TwoWarningsExample()
    ensures Expand(Some([("jsx", JString("x")), ("all.v1", JString("bogus"))])).warnings
         == [InvalidStrictness("jsx", JString("x")), InvalidStrictness("externals", JString("bogus"))]
  {
    var entries := [("jsx", JString("x")), ("all.v1", JString("bogus"))];
    ExpandWarnings(entries);
    assert entries[1..] == [("all.v1", JString("bogus"))];
    assert ExpectedWarnings(entries[1..], true) == [InvalidStrictness("externals", JString("bogus"))];
  }
}

=== FILE: types.dfy ===
/** The data model of `src/types.ts`: strictness levels, inline/external rule
    declarations, normalised match operations and JSON values, together with
    the few JavaScript value semantics (property lookup, truthiness, `typeof`)
    the rest of the model relies on. */
module Types {
  import opened Wrappers

  /** `Strictness`: how a violated strictness dimension is reported. */
  datatype Strictness = Allow | Warn | Error

  /** The string spelling of a strictness level in a manifest. */
  function StrictnessName(s: Strictness): string {
    match s
    case Allow => "allow"
    case Warn => "warn"
    case Error => "error"
  }

  /** `ExternalConfig`: whether a matched dependency is bundled or left external. */
  datatype ExternalConfig = Inline | External

  /** One `(pattern, config)` pair of a rule record, in declaration order. */
  type RuleEntry = (string, ExternalConfig)

  /** `InlineRule`: a bare pattern name, or a record of pattern names to configs. */
  datatype InlineRule = Bare(name: string) | Record(entries: seq<RuleEntry>)

  /** `InlineRules`: an array of rules, or one top-level record. */
  datatype InlineRules = RuleList(rules: seq<InlineRule>) | RuleRecord(entries: seq<RuleEntry>)

  /** `NormalizedExternalOperator`. */
  datatype Operator = StartsWith | Is

  /** `NormalizedExternalOption`: the triple `[operator, pattern, config]`. */
  datatype Op = Op(operator: Operator, pattern: string, config: ExternalConfig)

  /** `JsonValue`. Numbers matter only through their truthiness, so they are
      integers; an object is its entry sequence in `Object.entries` order. */
  datatype JsonValue =
    | JString(str: string)
    | JNumber(n: int)
    | JBool(b: bool)
    | JNull
    | JArray(items: seq<JsonValue>)
    | JObject(entries: seq<(string, JsonValue)>)

  type JsonObject = seq<(string, JsonValue)>

  /** The diagnostics `console.warn` prints while a package is built. */
  datatype Warning =
    | InvalidStrictness(key: string, value: JsonValue)
    | NoMainEntry(name: string, root: string)

  /** Property read `obj[key]`: `None` stands for `undefined`. The own keys of
      a JavaScript object are distinct, so the first matching entry is the one. */
  function Get(obj: JsonObject, key: string): (r: Option<JsonValue>)
    ensures r.None? <==> forall i :: 0 <= i < |obj| ==> obj[i].0 != key
    ensures r.Some? ==> exists i :: 0 <= i < |obj| && obj[i] == (key, r.value)
  {
    if |obj| == 0 then None
    else if obj[0].0 == key then Some(obj[0].1)
    else Get(obj[1..], key)
  }

  /** `obj` without any entry for `key` (`delete obj[key]`). */
  function Without(obj: JsonObject, key: string): (r: JsonObject)
    ensures Get(r, key).None?
    ensures forall k :: k != key ==> Get(r, k) == Get(obj, k)
  {
    if |obj| == 0 then []
    else if obj[0].0 == key then Without(obj[1..], key)
    else [obj[0]] + Without(obj[1..], key)
  }

  lemma {:induction false} GetAppend(a: JsonObject, b: JsonObject, key: string)
    ensures Get(a + b, key) == if Get(a, key).Some? then Get(a, key) else Get(b, key)
    decreases |a|
  {
    if |a| > 0 {
      assert (a + b)[1..] == a[1..] + b;
      GetAppend(a[1..], b, key);
    } else {
      assert a + b == b;
    }
  }

  /** `obj` with `key` set to `v`, or deleted when `v` is `undefined`. */
  function WithKey(obj: JsonObject, key: string, v: Option<JsonValue>): (r: JsonObject)
    ensures Get(r, key) == v
    ensures forall k :: k != key ==> Get(r, k) == Get(obj, k)
  {
    var rest := Without(obj, key);
    var last: JsonObject := if v.Some? then [(key, v.value)] else [];
    forall k ensures Get(rest + last, k) == if Get(rest, k).Some? then Get(rest, k) else Get(last, k) {
      GetAppend(rest, last, k);
    }
    rest + last
  }

  /** JavaScript truthiness of a possibly `undefined` JSON value. */
  predicate Truthy(v: Option<JsonValue>) {
    match v
    case None => false
    case Some(JString(s)) => s != ""
    case Some(JNumber(n)) => n != 0
    case Some(JBool(b)) => b
    case Some(JNull) => false
    case Some(JArray(_)) => true
    case Some(JObject(_)) => true
  }

  /** `typeof v === "object"`, which holds of `null` and of arrays too. */
  predicate IsObjectType(v: JsonValue) {
    v.JNull? || v.JArray? || v.JObject?
  }
}

=== FILE: wrappers.dfy ===
/** Wrappers: `Option` stands for a JavaScript value that may be
    `undefined`, `Result` for a computation that may throw. */
module Wrappers {

  datatype Option<+T> = None | Some(value: T)

  datatype Result<+T, +E> = Success(value: T) | Failure(error: E)
}
